=== FILE: README.md ===
# WebGL sphere/cube shader demo: a Dafny model of its core

This project models the core of the demo's `main.js`. The demo loads named
shader programs, builds a UV sphere and a cube, and redraws one of them every
animation frame with the selected program, a point light, an ambient light
and a mouse-driven orbit rotation. The model has one module per part of the
source:

- `Loader` (`loader.dfy`) is `loadFiles`. It starts a batch of requests whose
  responses arrive in any order. A completion stores its text at its index
  and bumps a counter; a failure only calls the error callback. Success is
  signalled when the counter reaches the number of urls.
- `Registry` (`registry.dfy`) is `compileShaders`. It fetches the two stage
  files as one batch, then compiles, links, looks up the attribute and uniform
  locations, and stores the program under its name. What the GPU decides
  (compile and link status, handles, locations) is an input record.
- `Transform` (`transform.dfy`) is `mvPushMatrix` / `mvPopMatrix` together
  with the stack of saved model-view matrices.
- `Orbit` (`orbit.dfy`) is the three mouse handlers and the rotation they
  accumulate.
- `Gl`, `Sphere`, `Cube` and `Objects` (`gl.dfy`, `sphere.dfy`, `cube.dfy`,
  `objects.dfy`) are the `object` constructor, `initSphere` with its nested
  loop, `initCube` with its fixed arrays, and `initObjects`.
- `Frame` (`frame.dfy`) is `drawScene` together with `setMatrixUniforms`. A
  frame is modelled as the list of GPU commands it issues, plus the renderer
  state it leaves behind (current program, current object, projection,
  model-view stack).
- `Matrix` (`matrix.dfy`) keeps the matrix library abstract: a matrix is a
  value of a type parameter `M`, and the library calls the core makes are
  fields of a record of functions. The frame fixes `M` to `Frame.Mat`, a
  sequence of reals (16 for a 4x4 matrix, 9 for the normal matrix), which it
  passes on and never reads.
  `Wrappers` (`wrappers.dfy`) holds `Option` and `Result`.

Points where the code behaves differently from what a quick reading
suggests, and what the model does:

- **A failed compile leaves a null shader, and the code links anyway.** The
  null stage attaches nothing, and OpenGL ES 2.0 fails the link of a program
  without both a vertex and a fragment shader. So the program is unlinked,
  the link alert is raised, and the program is still stored. The GPU report
  decides the link status only when both stages compiled.
- **Missing uniforms and attributes are marked differently.** A missing
  uniform is `null` in the code, modelled as `None`. A missing attribute
  location is `-1`, and only the texture-coordinate and normal attributes
  are tested, with `>= 0`. The position attribute is always bound.
- **All three attribute arrays are enabled.** They are enabled whatever their
  locations, including `-1`.
- **Re-registering a name throws instead of warning.** The code calls
  `console.warning`, which does not exist, so the callback throws before
  the assignment and the old program stays. `Registry.OnShadersLoadedAsWritten`
  models this. The program-loading path (`Registry.OnShadersLoaded`,
  `Registry.CompileShaders`) uses the corrected warn-and-overwrite instead;
  see Findings.
- **An empty batch never signals success.** The counter is only compared
  after an increment, so a batch of zero urls never calls success.

## Model

| member | source | states |
|---|---|---|
| Loader.Deliver | main.js:22-27 | A completion stores its text at its own index, keeps every other stored entry, and advances the counter by one. A completion calls nothing but success, and calls it exactly when the counter has just reached the number of urls, passing the updated result array. A failure changes nothing and calls only the error callback with its url. |
| Loader.RunCounts | main.js:17-31 | Over any sequence of responses, the counter advances by exactly the number of completions, and the url count never changes. |
| Loader.SuccessFiresOnCrossing | main.js:25-26 | Success is called exactly once if the counter crosses the number of urls during the run, and never otherwise: not early, and not a second time. |
| Loader.RunResult | main.js:20-23 | After completions only, the result array holds exactly the positions that have arrived, each with the text of its own url. |
| Loader.AllArrivedResult | main.js:17-31 | Once every position has arrived, the result array maps each index i to the text of url i and holds no other entry. |
| Loader.NoErrorsWhenAllOk | main.js:6-10 | When every response is a 200, the error callback is never called. |
| Loader.BatchSucceedsOnce | main.js:17-31 | When every request succeeds, in any arrival order, the callbacks called are exactly one success whose array has text i at index i. An empty batch calls nothing. |
| Loader.NoSuccessBeforeLastArrival | main.js:25-26 | When every response is a 200, no callback has been called before the last response arrives. |
| Loader.AnyFailureBlocksSuccess | main.js:7-26 | One failed request means success is never called, and the error callback receives that request's url. |
| Registry.ShaderUrls | main.js:96 | A program named n fetches `shaders/n.vshader` first and `shaders/n.fshader` second. |
| Registry.CompileShader | main.js:51-61 | The shader exists iff compilation succeeded. A compiled shader carries its stage and its source, with no diagnostic. A failed one is null, and its compiler log is reported. |
| Registry.LinkProgram | main.js:63-74 | The program object carries the name, the handle and the shaders it was given, and is returned whether or not linking succeeded. It is linked iff both stages are present and the GPU links them. A failed link adds exactly one alert naming the program. |
| Registry.BindProgram | main.js:76-94 | The program keeps the looked-up attribute and uniform locations unchanged. All three attribute locations are enabled in order, including -1. |
| Registry.RegisterAsWritten | main.js:103-105 | As written: a name not yet taken is stored with the new program, and every other entry is unchanged. A taken name throws (`console.warning` is not a function), and nothing is stored. |
| Registry.AsWrittenReregistrationKeepsOld | main.js:103-105 | Registering p1 and then a different p2 under one name makes the second call throw, and p1 stays registered. |
| Registry.Register | main.js:103-105 | Corrected: the new program is stored under its name, and every other entry is unchanged. A taken name draws exactly one override warning. |
| Registry.ReregistrationOverwrites | main.js:103-105 | Two registrations under one name leave the second program, produce exactly one warning, and leave the rest of the registry unchanged. |
| Registry.Build | main.js:98-101 | Before storing, the callback compiles the vertex stage from entry 0 and the fragment stage from entry 1. Each stage exists iff it compiled, and a failed one logs its compiler output. The program is linked iff both stages compiled and the GPU links them, with an alert iff not. The GPU's locations are kept, and all three attribute arrays are enabled. |
| Registry.OnShadersLoadedAsWritten | main.js:97-106 | As written: a taken name throws `console.warning` after the build. The registry keeps its old program, no warning is issued, and the diagnostics are exactly the build's (compile logs and link alert), with its enabled arrays. A free name is stored exactly as the corrected callback stores it. |
| Registry.AsWrittenCallbackKeepsOld | main.js:97-106 | On a taken name the callback as written throws and keeps the old program without a warning. The corrected one stores the newly built program with a warning. |
| Registry.OnShadersLoaded | main.js:97-106 | Corrected: the load callback registers the program under its name and leaves every other entry unchanged. The vertex stage is compiled from entry 0 and the fragment stage from entry 1, and each exists iff it compiled. The program is linked iff both stages compiled and the GPU links them. The locations are the GPU's. There is a link alert iff the program is unlinked, and an override warning iff the name was taken. |
| Registry.HandleSignals | main.js:96-110 | Corrected: running the loader's callbacks in order can only add or replace the entry under the program's own name. Every other entry is kept. |
| Registry.CompileShaders | main.js:49-111 | Corrected: `compileShaders(name)` changes no entry but its own name's, for any responses and arrival order. Its partners are `LoadedProgramIsRegistered` (both files load) and `LoadFailureRegistersNothing` (either file fails). |
| Registry.LoadedProgramIsRegistered | main.js:96-110 | Corrected: when both files load, in either arrival order, `compileShaders` registers the program under its name. Its vertex stage comes from the `.vshader` text and its fragment stage from the `.fshader` text. It is linked iff both stages compiled and the GPU links them, and it is registered even when unlinked (with an alert). |
| Registry.ErrorsLeaveRegistry | main.js:107-109 | Callbacks that are all errors leave the registry unchanged, and alert each failed url. |
| Registry.LoadFailureRegistersNothing | main.js:96-110 | If either file fails to load, the registry is unchanged, and the user is alerted with that file's url. |
| Transform.Push | main.js:149-153 | Push keeps the current matrix and appends a copy of it on top of the saved ones, leaving the older entries as they were. |
| Transform.Pop | main.js:155-159 | Pop fails with "invalid pop" iff the stack is empty. Otherwise the top becomes current and is removed, so the saved entries plus the new current give back the old stack. |
| Transform.SetCurrent | main.js:509-511 | Rebuilding the model-view matrix replaces the current matrix and leaves the saved stack alone. |
| Transform.PushPopRestores | main.js:149-159 | Push then pop gives back exactly the state before the push, even if the current matrix was replaced in between. |
| Transform.PopEmptyFails | main.js:156-157 | Popping an empty stack fails, whatever the current matrix. |
| Transform.NestedPushPopRestores | main.js:149-159 | n pushes, each followed by a change of the current matrix, deepen the stack by n, and n pops restore the original state exactly. |
| Orbit.MouseDown | main.js:184-188 | Pressing sets the flag and anchors the cursor position, and keeps the rotation. |
| Orbit.MouseUp | main.js:190-192 | Releasing clears the flag and changes nothing else. |
| Orbit.MouseMove | main.js:194-212 | A move while released changes nothing. While pressed, the increment for (new - last) is multiplied onto the rotation from the left, and the new position becomes the last one. |
| Orbit.DeltasTelescope | main.js:200-211 | The per-move deltas of a drag add up to the distance from the anchor to the final position. |
| Orbit.DragAccumulates | main.js:194-212 | A drag of n moves ends pressed, at the last position, with each move's increment multiplied in from the left, in order. |
| Orbit.AccumulateIsLeftProduct | main.js:208 | With an associative product, the accumulated rotation is the start rotation left-multiplied by the composed increments: it is never replaced. |
| Orbit.ReleasedMovesAreIgnored | main.js:195-196 | Any number of moves while released leave the controller unchanged. |
| Orbit.EightPixelsIsOneDegree | main.js:200-208 | Pressing and then moving 8 pixels right rotates by exactly one degree about Y and none about X. |
| Gl.NewMesh | main.js:214-224 | The four buffers of an object are labelled with its name and their role, so they are distinct. They get item sizes 3, 3, 2, 1 and the given item counts. |
| Gl.MeshConsistent | main.js:280-298 | Item sizes 3/3/2/1 with counts taken as length / item size describe arrays of v vertices and 3t in-range indices consistently. |
| Sphere.VisitPoint | main.js:249-274 | One inner-loop step pushes exactly the next vertex's normal, texture coordinates and scaled position. It pushes the cell's six indices only for points before the last row and column. |
| Sphere.AppendRow | main.js:244-275 | The inner loop extends the built rows by one full row of M + 1 vertices, plus that row's M cells when it is not the last row. |
| Sphere.BuildSphere | main.js:239-276 | The nested loop's arrays are exactly the flattened grid of (L + 1)(M + 1) vertices in row order, and the cell indices of rows 0 .. L - 1. |
| Sphere.GridVerticesLength | main.js:239-244 | The first `lat` rows hold lat(M + 1) vertices. |
| Sphere.GridVertexAt | main.js:264-266 | Vertex number lat(M + 1) + lon of the grid is grid point (lat, lon), so the index arithmetic addresses the vertex layout correctly. |
| Sphere.CellCorners | main.js:265-273 | The two triangles of cell (lat, lon) use exactly its four corners (lat, lon), (lat + 1, lon), (lat, lon + 1) and (lat + 1, lon + 1), in the source's order. |
| Sphere.GridIndicesLength | main.js:264-274 | The cells of `lat` rows contribute 6 lat M indices. |
| Sphere.GridIndicesBounded | main.js:264-274 | Every index of the first `lat` rows names a vertex of the first lat + 1 rows. |
| Sphere.PositionsAreScaledNormals | main.js:255-262 | Every position component is the matching normal component times the radius 1.5. |
| Sphere.SphereShape | main.js:239-276 | The sphere has (L + 1)(M + 1) vertices of 3 + 3 + 2 floats and 6LM indices, every index is in range, and positions are scaled normals. |
| Sphere.InitSphere | main.js:230-301 | The sphere's buffers are labelled "sphere" and consistent with its arrays, with (L + 1)(M + 1) vertices and 6LM indices. |
| Sphere.ToUint16 | main.js:296 | The 16-bit index upload keeps each index modulo 65536. |
| Sphere.SphereFitsUint16 | main.js:296 | When the grid has at most 65536 vertices, the 16-bit upload leaves every index unchanged. |
| Sphere.DefaultSphereFitsUint16 | main.js:231-296 | With the source's 20 x 20 bands, the index array survives the 16-bit upload unchanged. |
| Sphere.DefaultCounts | main.js:231-232 | The 20 x 20 bands give 441 vertices and 2400 indices. |
| Cube.FaceEntries | main.js:418-425 | Block f of the index array is the split of face f's vertices 4f .. 4f + 3 into (0, 1, 2) and (0, 2, 3). |
| Cube.CubeIndicesStayOnFace | main.js:418-425 | Each index names a vertex of the face whose block holds it, so no triangle spans two faces, and every index is below 24. |
| Cube.InitCube | main.js:303-450 | The cube's buffers are labelled "cube". The hard-coded counts 24, 24, 24 and 36 agree with the arrays' lengths (72, 72, 48, 36), and every index is in range. |
| Objects.Table | main.js:452-453 | The object table holds exactly "sphere" and "cube", each mesh under its own name. |
| Objects.InitObjects | main.js:229-454 | `initObjects` stores exactly the sphere and the cube, each labelled and consistent: 441 vertices and 2400 indices for the sphere, 24 and 36 for the cube. |
| Frame.Initial | main.js:145-147 | Before the first frame, neither program nor object is current and nothing is saved on the stack. The projection and model-view matrices are freshly created, so every entry is zero: `mat4.create()` with no `mat4.identity` call, unlike the rotation. |
| Frame.SwitchProgram | main.js:468-472 | `useProgram` is issued iff the program differs from the current one. |
| Frame.MatrixUniforms | main.js:161-171 | Projection then model-view are always uploaded. The normal matrix of the model-view is uploaded iff the program declares its uniform. |
| Frame.Setup | main.js:456-515 | A frame with a program starts with viewport and clear, draws nothing before the object lookup, and issues `useProgram` only at position 2 and only when switching. |
| Frame.Draw | main.js:528-546 | The drawing part consists of drawing commands only, and ends with exactly one draw call, whose count is the index buffer's item count. |
| Frame.DrawScene | main.js:456-460 | Every frame starts with viewport and clear and rebuilds the projection for the canvas. It never touches the saved model-view matrices. |
| Frame.ShininessEffect | main.js:474-477 | The only scalar uniform the lighting block sets is the shininess, to the chosen value, and it is set iff the program declares it. |
| Frame.LightingEffect | main.js:474-507 | After the lighting block, a declared ambient colour holds the chosen colour, or zero when ambient light is off. The point light is written only when both its uniforms are declared: colour and position when on, the colour zeroed and the position kept when off. No other vector uniform changes. |
| Frame.AmbientStore | main.js:479-489 | The ambient block writes the ambient colour, or zero while ambient light is off, and only when the uniform is declared. |
| Frame.PointStore | main.js:491-507 | The point light block writes position and colour when on, zeroes only the colour when off, and writes nothing unless both uniforms are declared. |
| Frame.FrameTexture | main.js:513-515 | A frame binds the grid texture on unit 0 and points the sampler at that unit iff the program is registered. |
| Frame.MissingProgramSkipsFrame | main.js:464-466 | An unregistered program ends the frame after viewport and clear, and only the projection in the state changes. |
| Frame.MissingMeshSkipsDraw | main.js:517-521 | An unregistered object ends the frame before anything is drawn. The program is still made current, the model-view matrix is rebuilt, and the current object is kept. |
| Frame.UseProgramOnlyOnSwitch | main.js:468-472 | A frame issues `useProgram` iff the selected program is registered and not already current, and then only right after the clear. |
| Frame.SecondFrameDoesNotSwitch | main.js:468-472 | After a frame with a registered program, the next frame with the same selection issues no `useProgram`. |
| Frame.FrameLighting | main.js:473-516 | Over a whole frame, the vector uniforms change exactly as the lighting block changes them, and not at all when the program is missing. |
| Frame.DrawnFrameDrawsIndexCount | main.js:544-546 | A frame with both lookups successful ends with its only draw call, counting the index buffer's items, and leaves that program and object current. |
| Frame.DrawMatrices | main.js:161-171 | The drawing part uploads the given projection and model-view. It uploads a normal matrix iff the program declares one, and it is the model-view's normal matrix. |
| Frame.DrawnFrameMatrices | main.js:509-546 | A drawn frame uploads the canvas projection and the model-view (pull-back, then the orbit rotation), and the latter's normal matrix iff declared. The model-view becomes current. |
| Frame.AttributesAreBound | main.js:528-542 | The position buffer is always bound. Texture coordinates and normals are bound iff their location is `>= 0`. Every bind is immediately followed by the pointer for its own attribute and item size. |
| Frame.DrawAttributes | main.js:528-546 | The drawing part binds the attributes exactly as the attribute block does. |
| Frame.DrawnFrameAttributes | main.js:517-546 | A drawn frame binds the attributes of the selected program and object exactly as the attribute block does. |
| Frame.LambertSphereExample | main.js:456-547 | Lambert program on the sphere, ambient off, white point light at (0, 0, 10): ambient colour zero, light position and colour exactly those, and a final draw of 2400 indices. |

## Left out

- XMLHttpRequest and the network (`loadFile`, main.js:1-15) become a
  response per url and an arrival order, both given as inputs.
- Textures (`handleLoadedTexture`, `initTexture`, main.js:120-143) are out of
  scope; a frame only receives the texture's handle.
- `initGL`, `initShaders`, `webGLStart` and `tick` are left out: the DOM, the
  canvas, the browser's animation loop, `clearColor` and `enable(DEPTH_TEST)`.
  The page's controls arrive as a `Controls` value each frame.
- `parseFloat` of the page's fields is not modelled; the values arrive as
  reals, so a field that parses to NaN cannot be expressed.
- Trigonometry and the matrix library's arithmetic are abstract: the sphere's
  unit normals come from a `normalAt` parameter, and `mat4` / `mat3` calls are
  functions over matrices whose entries are never computed.
- Float32 rounding of the uploaded arrays is not modelled.
- Console logs (`console.log`) carry no state and are not modelled; compile
  logs, alerts and the override warning are.
- Sphere.InitSphere: requires at least one latitude and one longitude band,
  because the source divides by both counts. The source uses 20 and 20.
- Cube.InitCube: the vertex, normal and texture values are transcribed, but
  the contract states only their counts and the index structure, not their
  geometry.
- Frame.SwitchProgram: program identity is compared as record equality. This
  matches the source's object identity because every linked program has its
  own handle.
- Frame.AttributesAreBound: requires the mesh's buffers to carry distinct
  labels, which the `object` constructor always gives them.
- Frame.LightingEffect: requires the three light uniforms to have distinct
  locations, which the GPU guarantees for distinct uniform names.
- Looking up a program or an object by a name such as `constructor` or
  `__proto__` would read an inherited property of a plain JavaScript object;
  the model's maps hold only registered names.
- Passing a null shader to `attachShader` after a failed compile is modelled
  as attaching nothing, after which the link fails for lack of a stage. An
  implementation whose `attachShader` rejects null with a TypeError would
  end the callback there instead: no link alert, no program stored. That
  variant is not modelled.

## Findings

| source | as written | input that shows it | evidently intended | confidence | as-written member | corrected member |
|---|---|---|---|---|---|---|
| main.js:103-105 | A taken name calls `console.warning`, which is not a console method, so the call throws a TypeError before the assignment on line 105. | Registering a program under a name that is already registered, e.g. `compileShaders` run twice for one id. | Warn (`console.warn`), then overwrite the entry with the new program. | high; not executed | Registry.RegisterAsWritten, Registry.AsWrittenReregistrationKeepsOld, Registry.OnShadersLoadedAsWritten, Registry.AsWrittenCallbackKeepsOld | Registry.Register, Registry.ReregistrationOverwrites, Registry.OnShadersLoaded, Registry.HandleSignals, Registry.CompileShaders, Registry.LoadedProgramIsRegistered |

=== FILE: cube.dfy ===
/** The cube (`initCube`): fixed arrays of 24 vertices, four per face in the
    order front, back, top, bottom, right, left, and 36 indices that draw
    each face as two triangles, with item counts written out as constants
    rather than computed from the arrays. */
module Cube {
  import opened Gl

  const Positions: seq<real> := [
    -1.0, -1.0,  1.0,    1.0, -1.0,  1.0,    1.0,  1.0,  1.0,   -1.0,  1.0,  1.0,   // front
    -1.0, -1.0, -1.0,   -1.0,  1.0, -1.0,    1.0,  1.0, -1.0,    1.0, -1.0, -1.0,   // back
    -1.0,  1.0, -1.0,   -1.0,  1.0,  1.0,    1.0,  1.0,  1.0,    1.0,  1.0, -1.0,   // top
    -1.0, -1.0, -1.0,    1.0, -1.0, -1.0,    1.0, -1.0,  1.0,   -1.0, -1.0,  1.0,   // bottom
     1.0, -1.0, -1.0,    1.0,  1.0, -1.0,    1.0,  1.0,  1.0,    1.0, -1.0,  1.0,   // right
    -1.0, -1.0, -1.0,   -1.0, -1.0,  1.0,   -1.0,  1.0,  1.0,   -1.0,  1.0, -1.0    // left
  ]

  const Normals: seq<real> := [
     0.0,  0.0,  1.0,    0.0,  0.0,  1.0,    0.0,  0.0,  1.0,    0.0,  0.0,  1.0,
     0.0,  0.0, -1.0,    0.0,  0.0, -1.0,    0.0,  0.0, -1.0,    0.0,  0.0, -1.0,
     0.0,  1.0,  0.0,    0.0,  1.0,  0.0,    0.0,  1.0,  0.0,    0.0,  1.0,  0.0,
     0.0, -1.0,  0.0,    0.0, -1.0,  0.0,    0.0, -1.0,  0.0,    0.0, -1.0,  0.0,
     1.0,  0.0,  0.0,    1.0,  0.0,  0.0,    1.0,  0.0,  0.0,    1.0,  0.0,  0.0,
    -1.0,  0.0,  0.0,   -1.0,  0.0,  0.0,   -1.0,  0.0,  0.0,   -1.0,  0.0,  0.0
  ]

  const TexCoords: seq<real> := [
    0.0, 0.0,   1.0, 0.0,   1.0, 1.0,   0.0, 1.0,
    1.0, 0.0,   1.0, 1.0,   0.0, 1.0,   0.0, 0.0,
    0.0, 1.0,   0.0, 0.0,   1.0, 0.0,   1.0, 1.0,
    1.0, 1.0,   0.0, 1.0,   0.0, 0.0,   1.0, 0.0,
    1.0, 0.0,   1.0, 1.0,   0.0, 1.0,   0.0, 0.0,
    0.0, 0.0,   1.0, 0.0,   1.0, 1.0,   0.0, 1.0
  ]

  /** The 36 entries of the index array, written as its six rows of six
      (one row per face) joined. */
  const Indices: seq<int> :=
      [ 0,  1,  2,    0,  2,  3]
    + [ 4,  5,  6,    4,  6,  7]
    + [ 8,  9, 10,    8, 10, 11]
    + [12, 13, 14,   12, 14, 15]
    + [16, 17, 18,   16, 18, 19]
    + [20, 21, 22,   20, 22, 23]

  /** Reference definition of one face's indices: its four vertices are
      4f .. 4f+3, split into two triangles that share the first and third. */
  function FaceIndices(f: nat): (r: seq<int>)
    ensures |r| == 6
  {
    [4 * f, 4 * f + 1, 4 * f + 2, 4 * f, 4 * f + 2, 4 * f + 3]
  }

  /** Six entries that read as face f's split are that split. */
  lemma SplitAt(s: seq<int>, i: nat, f: nat)
    requires i + 6 <= |s|
    requires s[i] == 4 * f && s[i + 1] == 4 * f + 1 && s[i + 2] == 4 * f + 2
    requires s[i + 3] == 4 * f && s[i + 4] == 4 * f + 2 && s[i + 5] == 4 * f + 3
    ensures s[i .. i + 6] == FaceIndices(f)
  {
  }

  /** Face f's block of six entries in the index array is its split. */
  lemma FaceEntries(f: nat)
    requires f < 6
    ensures Indices[6 * f .. 6 * f + 6] == FaceIndices(f)
  {
    if f == 0 {
      FrontFace();
    } else if f == 1 {
      BackFace();
    } else if f == 2 {
      TopFace();
    } else if f == 3 {
      BottomFace();
    } else if f == 4 {
      RightFace();
    } else {
      LeftFace();
    }
  }

  lemma FrontFace()
    ensures Indices[0..6] == FaceIndices(0)
  {
    SplitAt(Indices, 0, 0);
  }

  lemma BackFace()
    ensures Indices[6..12] == FaceIndices(1)
  {
    SplitAt(Indices, 6, 1);
  }

  lemma TopFace()
    ensures Indices[12..18] == FaceIndices(2)
  {
    SplitAt(Indices, 12, 2);
  }

  lemma BottomFace()
    ensures Indices[18..24] == FaceIndices(3)
  {
    SplitAt(Indices, 18, 3);
  }

  lemma RightFace()
    ensures Indices[24..30] == FaceIndices(4)
  {
    SplitAt(Indices, 24, 4);
  }

  lemma LeftFace()
    ensures Indices[30..36] == FaceIndices(5)
  {
    SplitAt(Indices, 30, 5);
  }

  /** A sequence of n blocks, block f being face f's split, names in
      each entry a vertex of the face whose block holds it. */
  lemma {:induction false} BlocksStayOnFace(s: seq<int>, n: nat)
    requires |s| == 6 * n
    requires forall f :: 0 <= f < n ==> s[6 * f .. 6 * f + 6] == FaceIndices(f)
    ensures forall k :: 0 <= k < |s| ==> 4 * (k / 6) <= s[k] <= 4 * (k / 6) + 3
  {
    forall k | 0 <= k < |s|
      ensures 4 * (k / 6) <= s[k] <= 4 * (k / 6) + 3
    {
      var f := k / 6;
      assert 0 <= f < n && 0 <= k - 6 * f < 6;
      assert s[6 * f .. 6 * f + 6] == FaceIndices(f);
      assert s[k] == FaceIndices(f)[k - 6 * f];
    }
  }

  /** Face f's block of six indices is the two-triangle split of its own
      four vertices 4f .. 4f+3; so every index names a vertex of the face
      whose block holds it, no triangle spans two faces, and every index is
      below 24 (and fits a 16-bit index buffer). */
  lemma CubeIndicesStayOnFace()
    ensures |Indices| == 36
    ensures forall f :: 0 <= f < 6 ==> Indices[6 * f .. 6 * f + 6] == FaceIndices(f)
    ensures forall k :: 0 <= k < |Indices| ==> 4 * (k / 6) <= Indices[k] <= 4 * (k / 6) + 3
    ensures forall k :: 0 <= k < |Indices| ==> 0 <= Indices[k] < 24
  {
    forall f | 0 <= f < 6
      ensures Indices[6 * f .. 6 * f + 6] == FaceIndices(f)
    {
      FaceEntries(f);
    }
    BlocksStayOnFace(Indices, 6);
  }

  /** The mesh as the builder sets it up: the hard-coded counts 24, 24, 24
      and 36 agree with the arrays (72 / 3, 72 / 3, 48 / 2 and 36 / 1). */
  function InitCube(): (r: (Mesh, MeshData))
    ensures r.0.name == "cube" && Labelled(r.0)
    ensures r.1 == MeshData(Positions, Normals, TexCoords, Indices)
    ensures Consistent(r.0, r.1)
    ensures |r.1.positions| == 72 && |r.1.normals| == 72 && |r.1.texCoords| == 48 && |r.1.indices| == 36
    ensures r.0.position.numItems == 24 && r.0.normal.numItems == 24
    ensures r.0.texCoord.numItems == 24 && r.0.index.numItems == 36
  {
    CubeIndicesStayOnFace();
    (NewMesh("cube", 24, 24, 24, 36), MeshData(Positions, Normals, TexCoords, Indices))
  }
}

=== FILE: frame.dfy ===
/** One animation frame (`drawScene` with `setMatrixUniforms`), as the list
    of GPU commands it issues. The selected program and object are looked
    up by name; a missing one ends the frame early. The lighting uniforms and
    the normal matrix are set only when the program declares them, and the
    optional vertex attributes are
    bound only when their location is `>= 0`. The renderer's own state
    (current program, current object, projection and model-view matrices)
    is threaded through as a value. */
module Frame {
  import opened Wrappers
  import opened Gl
  import Matrix
  import Transform
  import Registry
  import Sphere

  /** A matrix as the matrix library stores it, its entries in a float
      array: 16 for a 4x4 `mat4`, 9 for the 3x3 normal matrix. The frame
      passes matrices on and never reads an entry. */
  type Mat = seq<real>

  /** What `mat4.create()` returns when given no array to copy: a new
      matrix with every entry zero (not the identity). */
  const Created: Mat := Zeros(16)

  function Zeros(n: nat): (z: seq<real>)
    ensures |z| == n && forall k :: 0 <= k < n ==> z[k] == 0.0
  {
    seq(n, _ => 0.0)
  }

  /** The texture unit the grid texture is bound to and the sampler reads. */
  const TextureUnit: int := 0

  /** The GPU calls of a frame. Uniform locations
      are the program's, so a matrix upload to an undeclared uniform carries
      `None` (the upload is issued and has no effect). */
  datatype Command =
    | Viewport(width: int, height: int)
    | Clear
    | UseProgram(program: nat)
    | Uniform1f(location: nat, scalar: real)
    | Uniform3f(location: nat, vector: Vec3)
    | Uniform1i(target: Option<nat>, unit: int)
    | UniformMatrix4(target: Option<nat>, matrix: Mat)
    | UniformMatrix3(location: nat, matrix: Mat)
    | ActiveTexture(unit: int)
    | BindTexture(texture: nat)
    | BindArrayBuffer(buffer: BufferId)
    | VertexAttribPointer(attribute: int, itemSize: nat)
    | BindElementBuffer(buffer: BufferId)
    | DrawElements(count: nat)

  /** The values read from the page each frame: the selected program and
      object names, the shininess, and the two lighting switches with their
      colours and light position. */
  datatype Controls = Controls(
    program: string,
    mesh: string,
    shininess: real,
    ambientOn: bool,
    ambient: Vec3,
    pointOn: bool,
    lightPosition: Vec3,
    lightColor: Vec3)

  /** The canvas size and the grid texture's handle. */
  datatype Canvas = Canvas(width: int, height: int, texture: nat)

  /** The renderer's state between frames. Both current selections start
      out undefined. */
  datatype RenderState = RenderState(
    program: Option<Registry.Program>,
    mesh: Option<Mesh>,
    projection: Mat,
    modelView: Transform.Stack<Mat>)

  /** The commands that belong to drawing a mesh: buffer bindings,
      attribute pointers, matrix uploads and the draw call. */
  predicate Drawing(cmd: Command)
  {
    || cmd.BindArrayBuffer? || cmd.VertexAttribPointer? || cmd.BindElementBuffer?
    || cmd.UniformMatrix4? || cmd.UniformMatrix3? || cmd.DrawElements?
  }

  /** The renderer's state before the first frame: the projection and the
      model-view matrix are freshly created (all zero) and only become
      meaningful when the first frame rebuilds them. */
  function Initial(): (s: RenderState)
    ensures s.program.None? && s.mesh.None?
    ensures s.modelView.saved == []
    ensures |s.projection| == 16 && forall k :: 0 <= k < 16 ==> s.projection[k] == 0.0
    ensures |s.modelView.current| == 16 && forall k :: 0 <= k < 16 ==> s.modelView.current[k] == 0.0
  {
    RenderState(None, None, Created, Transform.Stack(Created, []))
  }

  /** The commands of a frame and the state it leaves. */
  datatype Outcome = Outcome(commands: seq<Command>, state: RenderState)

  /** Binds a program when it is not the current one; the comparison is
      identity of program objects, and every created program has its own
      handle, so comparing the records is the same test. */
  function SwitchProgram(p: Registry.Program, current: Option<Registry.Program>): (cs: seq<Command>)
    ensures current == Some(p) ==> cs == []
    ensures current != Some(p) ==> cs == [UseProgram(p.link.handle)]
  {
    if current != Some(p) then [UseProgram(p.link.handle)] else []
  }

  /** The shininess, when the program declares it. */
  function Shininess(u: Registry.Uniforms, c: Controls): (cs: seq<Command>)
    ensures forall k :: 0 <= k < |cs| ==> cs[k].Uniform1f?
  {
    if u.shininess.Some? then [Uniform1f(u.shininess.value, c.shininess)] else []
  }

  /** The ambient colour, when the program declares it: zero while ambient
      lighting is off. */
  function Ambient(u: Registry.Uniforms, c: Controls): (cs: seq<Command>)
    ensures forall k :: 0 <= k < |cs| ==> cs[k].Uniform3f?
  {
    if u.ambientColor.None? then []
    else if c.ambientOn then [Uniform3f(u.ambientColor.value, c.ambient)]
    else [Uniform3f(u.ambientColor.value, Zero)]
  }

  /** The point light, only when both its uniforms are declared; while it
      is off only the colour is zeroed, the position is not written. */
  function PointLight(u: Registry.Uniforms, c: Controls): (cs: seq<Command>)
    ensures forall k :: 0 <= k < |cs| ==> cs[k].Uniform3f?
  {
    if u.pointLightingLocation.None? || u.pointLightingColor.None? then []
    else if c.pointOn then
      [Uniform3f(u.pointLightingLocation.value, c.lightPosition), Uniform3f(u.pointLightingColor.value, c.lightColor)]
    else [Uniform3f(u.pointLightingColor.value, Zero)]
  }

  /** The lighting uniforms, in the order the frame sets them. */
  function Lighting(u: Registry.Uniforms, c: Controls): (cs: seq<Command>)
    ensures forall k :: 0 <= k < |cs| ==> cs[k].Uniform1f? || cs[k].Uniform3f?
  {
    Shininess(u, c) + Ambient(u, c) + PointLight(u, c)
  }

  /** The grid texture on unit 0, and the sampler pointed at that unit. */
  function Texturing(u: Registry.Uniforms, texture: nat): (cs: seq<Command>)
    ensures |cs| == 3 && cs[2] == Uniform1i(u.sampler, TextureUnit)
  {
    [ActiveTexture(TextureUnit), BindTexture(texture), Uniform1i(u.sampler, TextureUnit)]
  }

  /** Binds a vertex buffer and points an attribute at it. */
  function Pair(b: Buffer, location: int): (cs: seq<Command>)
    ensures |cs| == 2 && cs[0].BindArrayBuffer? && cs[1].VertexAttribPointer?
  {
    [BindArrayBuffer(b.id), VertexAttribPointer(location, b.itemSize)]
  }

  /** The vertex attributes: positions always, then texture coordinates and
      normals each only when the program has the attribute. */
  function Attributes(a: Registry.Attribs, m: Mesh): (cs: seq<Command>)
    ensures |cs| >= 2 && cs[..2] == [BindArrayBuffer(m.position.id), VertexAttribPointer(a.position, m.position.itemSize)]
    ensures forall k :: 0 <= k < |cs| ==> cs[k].BindArrayBuffer? || cs[k].VertexAttribPointer?
  {
    var texCoord := if a.texCoord >= 0 then Pair(m.texCoord, a.texCoord) else [];
    var normal := if a.normal >= 0 then Pair(m.normal, a.normal) else [];
    Pair(m.position, a.position) + texCoord + normal
  }

  /** `setMatrixUniforms`: projection and model-view are uploaded
      unconditionally; the normal matrix only when the program declares
      it. */
  function MatrixUniforms(ops: Matrix.MatrixOps<Mat>, u: Registry.Uniforms, projection: Mat, modelView: Mat): (cs: seq<Command>)
    ensures |cs| >= 2 && cs[..2] == [UniformMatrix4(u.projection, projection), UniformMatrix4(u.modelView, modelView)]
    ensures u.normal.None? ==> |cs| == 2
    ensures forall k :: 0 <= k < |cs| ==> cs[k].UniformMatrix4? || cs[k].UniformMatrix3?
    ensures u.normal.Some? ==> |cs| == 3 && cs[2] == UniformMatrix3(u.normal.value, ops.normalOf(modelView))
  {
    var both := [UniformMatrix4(u.projection, projection), UniformMatrix4(u.modelView, modelView)];
    if u.normal.Some? then both + [UniformMatrix3(u.normal.value, ops.normalOf(modelView))] else both
  }

  /** The model-view matrix of a frame: the camera pull-back, then the
      accumulated orbit rotation. */
  function ModelView(ops: Matrix.MatrixOps<Mat>, rotation: Mat): Mat
  {
    ops.mul(ops.mul(ops.identity, ops.pullBack), rotation)
  }

  /** The commands a frame issues once its program is found, up to the
      mesh lookup. */
  function Setup(p: Registry.Program, canvas: Canvas, c: Controls, current: Option<Registry.Program>): (cs: seq<Command>)
    ensures |cs| >= 2 && cs[..2] == [Viewport(canvas.width, canvas.height), Clear]
    ensures forall k :: 0 <= k < |cs| ==> !Drawing(cs[k])
    ensures forall k :: 0 <= k < |cs| ==> (cs[k].UseProgram? <==> k == 2 && current != Some(p))
  {
    [Viewport(canvas.width, canvas.height), Clear] + SwitchProgram(p, current)
      + Lighting(p.uniforms, c) + Texturing(p.uniforms, canvas.texture)
  }

  /** The commands that draw mesh m with program p, the draw call last. */
  function Draw(ops: Matrix.MatrixOps<Mat>, p: Registry.Program, m: Mesh, projection: Mat, modelView: Mat): (cs: seq<Command>)
    ensures |cs| > 0 && cs[|cs| - 1] == DrawElements(m.index.numItems)
    ensures forall k :: 0 <= k < |cs| ==> Drawing(cs[k])
    ensures forall k :: 0 <= k < |cs| - 1 ==> !cs[k].DrawElements?
  {
    Attributes(p.attribs, m) + [BindElementBuffer(m.index.id)]
      + MatrixUniforms(ops, p.uniforms, projection, modelView) + [DrawElements(m.index.numItems)]
  }

  /** One frame. The projection is rebuilt before the program lookup, the
      model-view matrix after it; the current selections are updated as the
      lookups succeed. */
  function DrawScene(ops: Matrix.MatrixOps<Mat>, programs: Registry.Programs, objects: map<string, Mesh>,
    canvas: Canvas, c: Controls, rotation: Mat, s: RenderState): (r: Outcome)
    ensures r.state.projection == ops.perspective(canvas.width, canvas.height)
    ensures r.state.modelView.saved == s.modelView.saved
    ensures |r.commands| >= 2 && r.commands[..2] == [Viewport(canvas.width, canvas.height), Clear]
  {
    var projection := ops.perspective(canvas.width, canvas.height);
    if c.program !in programs then
      Outcome([Viewport(canvas.width, canvas.height), Clear], s.(projection := projection))
    else
      var p := programs[c.program];
      var mv := ModelView(ops, rotation);
      var s1 := RenderState(Some(p), s.mesh, projection, Transform.SetCurrent(s.modelView, mv));
      if c.mesh !in objects then
        Outcome(Setup(p, canvas, c, s.program), s1)
      else
        var m := objects[c.mesh];
        Outcome(Setup(p, canvas, c, s.program) + Draw(ops, p, m, projection, mv), s1.(mesh := Some(m)))
  }

  /** The vector uniforms after running commands: each `Uniform3f`
      overwrites its location, every other command leaves them alone. */
  function Store3(g: map<nat, Vec3>, cs: seq<Command>): map<nat, Vec3>
    decreases |cs|
  {
    if |cs| == 0 then g
    else Store3(if cs[0].Uniform3f? then g[cs[0].location := cs[0].vector] else g, cs[1..])
  }

  lemma {:induction false} Store3Append(g: map<nat, Vec3>, a: seq<Command>, b: seq<Command>)
    ensures Store3(g, a + b) == Store3(Store3(g, a), b)
    decreases |a|
  {
    if |a| == 0 {
      assert a + b == b;
    } else {
      assert (a + b)[0] == a[0] && (a + b)[1..] == a[1..] + b;
      var g1 := if a[0].Uniform3f? then g[a[0].location := a[0].vector] else g;
      Store3Append(g1, a[1..], b);
    }
  }

  lemma {:induction false} Store3Untouched(g: map<nat, Vec3>, cs: seq<Command>)
    requires forall k :: 0 <= k < |cs| ==> !cs[k].Uniform3f?
    ensures Store3(g, cs) == g
    decreases |cs|
  {
    if |cs| > 0 {
      Store3Untouched(g, cs[1..]);
    }
  }

  /** Commands without a vector upload before or after others leave the
      others' effect as it is. */
  lemma Store3After(g: map<nat, Vec3>, pre: seq<Command>, mid: seq<Command>, post: seq<Command>)
    requires forall k :: 0 <= k < |pre| ==> !pre[k].Uniform3f?
    requires forall k :: 0 <= k < |post| ==> !post[k].Uniform3f?
    ensures Store3(g, pre + mid) == Store3(g, mid)
    ensures Store3(g, mid + post) == Store3(g, mid)
  {
    Store3Append(g, pre, mid);
    Store3Untouched(g, pre);
    Store3Append(g, mid, post);
    Store3Untouched(Store3(g, mid), post);
  }

  lemma Store3One(g: map<nat, Vec3>, cmd: Command)
    ensures Store3(g, [cmd]) == if cmd.Uniform3f? then g[cmd.location := cmd.vector] else g
  {
    assert [cmd][1..] == [];
  }

  /** A vector uniform still holds what it held before. */
  ghost predicate Keeps(before: map<nat, Vec3>, after: map<nat, Vec3>, loc: nat)
  {
    (loc in after <==> loc in before) && (loc in before ==> after[loc] == before[loc])
  }

  /** The ambient, light position and light colour uniforms, those declared,
      are distinct locations. */
  ghost predicate DistinctLightUniforms(u: Registry.Uniforms)
  {
    && (u.ambientColor.Some? && u.pointLightingLocation.Some? ==> u.ambientColor.value != u.pointLightingLocation.value)
    && (u.ambientColor.Some? && u.pointLightingColor.Some? ==> u.ambientColor.value != u.pointLightingColor.value)
    && (u.pointLightingLocation.Some? && u.pointLightingColor.Some? ==> u.pointLightingLocation.value != u.pointLightingColor.value)
  }

  /** What the lighting uniforms hold after the lighting block: the ambient
      colour, when declared, is the chosen colour or zero while ambient
      lighting is off; the point light is written only when both its
      uniforms are declared, and then with the light off only its colour is
      zeroed while its position keeps its previous value; nothing else is
      written. */
  lemma LightingEffect(g: map<nat, Vec3>, u: Registry.Uniforms, c: Controls)
    requires DistinctLightUniforms(u)
    ensures var after := Store3(g, Lighting(u, c));
      var point := u.pointLightingLocation.Some? && u.pointLightingColor.Some?;
      && (u.ambientColor.Some? ==>
            u.ambientColor.value in after && after[u.ambientColor.value] == (if c.ambientOn then c.ambient else Zero))
      && (point ==>
            u.pointLightingColor.value in after
            && after[u.pointLightingColor.value] == (if c.pointOn then c.lightColor else Zero))
      && (point && c.pointOn ==>
            u.pointLightingLocation.value in after && after[u.pointLightingLocation.value] == c.lightPosition)
      && (point && !c.pointOn ==> Keeps(g, after, u.pointLightingLocation.value))
      && (forall loc: nat :: Keeps(g, after, loc) || Some(loc) == u.ambientColor
            || (point && (Some(loc) == u.pointLightingLocation || Some(loc) == u.pointLightingColor)))
  {
    var shininess: seq<Command> := Shininess(u, c);
    var ambient: seq<Command> := Ambient(u, c);
    Store3Append(g, shininess + ambient, PointLight(u, c));
    Store3Append(g, shininess, ambient);
    Store3Untouched(g, shininess);
    AmbientStore(g, u, c);
    PointStore(Store3(g, ambient), u, c);
  }

  /** The only scalar uniform the lighting block sets is the shininess, to
      the chosen value, and it is set exactly when the program declares
      it. */
  lemma ShininessEffect(u: Registry.Uniforms, c: Controls)
    ensures var cs := Lighting(u, c);
      && ((exists k :: 0 <= k < |cs| && cs[k].Uniform1f?) <==> u.shininess.Some?)
      && (forall k :: 0 <= k < |cs| && cs[k].Uniform1f? ==> cs[k] == Uniform1f(u.shininess.value, c.shininess))
  {
    var cs := Lighting(u, c);
    var shininess: seq<Command> := Shininess(u, c);
    var rest := Ambient(u, c) + PointLight(u, c);
    assert cs == shininess + rest;
    forall k | |shininess| <= k < |cs|
      ensures !cs[k].Uniform1f?
    {
      assert cs[k] == rest[k - |shininess|];
    }
    if u.shininess.Some? {
      assert cs[0].Uniform1f?;
    }
  }

  lemma AmbientStore(g: map<nat, Vec3>, u: Registry.Uniforms, c: Controls)
    ensures Store3(g, Ambient(u, c)) ==
      if u.ambientColor.None? then g else g[u.ambientColor.value := if c.ambientOn then c.ambient else Zero]
  {
    var cs := Ambient(u, c);
    if cs != [] {
      Store3One(g, cs[0]);
    }
  }

  lemma PointStore(g: map<nat, Vec3>, u: Registry.Uniforms, c: Controls)
    ensures Store3(g, PointLight(u, c)) ==
      if u.pointLightingLocation.None? || u.pointLightingColor.None? then g
      else if c.pointOn then g[u.pointLightingLocation.value := c.lightPosition][u.pointLightingColor.value := c.lightColor]
      else g[u.pointLightingColor.value := Zero]
  {
    var cs := PointLight(u, c);
    if |cs| == 2 {
      assert cs == [cs[0]] + [cs[1]];
      Store3Append(g, [cs[0]], [cs[1]]);
      Store3One(g, cs[0]);
      Store3One(g[cs[0].location := cs[0].vector], cs[1]);
    } else if |cs| == 1 {
      Store3One(g, cs[0]);
    }
  }

  /** An unregistered program ends the frame after the viewport and clear:
      no program switch, uniform, binding or draw, and only the projection
      of the renderer's state changes. */
  lemma MissingProgramSkipsFrame(ops: Matrix.MatrixOps<Mat>, programs: Registry.Programs, objects: map<string, Mesh>,
    canvas: Canvas, c: Controls, rotation: Mat, s: RenderState)
    requires c.program !in programs
    ensures var r := DrawScene(ops, programs, objects, canvas, c, rotation, s);
      && r.commands == [Viewport(canvas.width, canvas.height), Clear]
      && r.state == s.(projection := ops.perspective(canvas.width, canvas.height))
  {
  }

  /** An unregistered object ends the frame before anything is drawn: the
      program is current and the model-view matrix rebuilt, but no buffer
      is bound, no matrix uploaded and nothing drawn, and the current object
      stays what it was. */
  lemma MissingMeshSkipsDraw(ops: Matrix.MatrixOps<Mat>, programs: Registry.Programs, objects: map<string, Mesh>,
    canvas: Canvas, c: Controls, rotation: Mat, s: RenderState)
    requires c.program in programs && c.mesh !in objects
    ensures var r := DrawScene(ops, programs, objects, canvas, c, rotation, s);
      && (forall k :: 0 <= k < |r.commands| ==> !Drawing(r.commands[k]))
      && r.state.program == Some(programs[c.program])
      && r.state.mesh == s.mesh
      && r.state.modelView.current == ModelView(ops, rotation)
  {
  }

  /** `useProgram` is issued, right after the clear, exactly when the
      selected program is registered and is not already the current one. */
  lemma UseProgramOnlyOnSwitch(ops: Matrix.MatrixOps<Mat>, programs: Registry.Programs, objects: map<string, Mesh>,
    canvas: Canvas, c: Controls, rotation: Mat, s: RenderState)
    ensures var r := DrawScene(ops, programs, objects, canvas, c, rotation, s);
      var switches := c.program in programs && s.program != Some(programs[c.program]);
      && ((exists k :: 0 <= k < |r.commands| && r.commands[k].UseProgram?) <==> switches)
      && (switches ==> r.commands[2] == UseProgram(programs[c.program].link.handle))
      && (forall k :: 0 <= k < |r.commands| && r.commands[k].UseProgram? ==> k == 2)
  {
    var r := DrawScene(ops, programs, objects, canvas, c, rotation, s);
    if c.program in programs {
      var p := programs[c.program];
      var setup: seq<Command> := Setup(p, canvas, c, s.program);
      if c.mesh in objects {
        var draw := Draw(ops, p, objects[c.mesh], ops.perspective(canvas.width, canvas.height), ModelView(ops, rotation));
        assert r.commands == setup + draw;
        SetupCommandsFirst(setup, draw);
      }
      if s.program != Some(p) {
        assert r.commands[2].UseProgram?;
      }
    }
  }

  /** In setup commands followed by draw commands, everything after the
      setup commands draws. */
  lemma SetupCommandsFirst(setup: seq<Command>, draw: seq<Command>)
    requires forall k :: 0 <= k < |draw| ==> Drawing(draw[k])
    ensures forall k :: |setup| <= k < |setup + draw| ==> Drawing((setup + draw)[k])
  {
    forall k | |setup| <= k < |setup + draw|
      ensures Drawing((setup + draw)[k])
    {
      assert (setup + draw)[k] == draw[k - |setup|];
    }
  }

  /** A frame with a registered program puts the grid texture on unit 0
      and points the sampler at that unit; without one, no texture command
      is issued. */
  lemma FrameTexture(ops: Matrix.MatrixOps<Mat>, programs: Registry.Programs, objects: map<string, Mesh>,
    canvas: Canvas, c: Controls, rotation: Mat, s: RenderState)
    ensures var r := DrawScene(ops, programs, objects, canvas, c, rotation, s);
      && (ActiveTexture(TextureUnit) in r.commands <==> c.program in programs)
      && (BindTexture(canvas.texture) in r.commands <==> c.program in programs)
      && (c.program in programs ==> Uniform1i(programs[c.program].uniforms.sampler, TextureUnit) in r.commands)
  {
    var r := DrawScene(ops, programs, objects, canvas, c, rotation, s);
    if c.program in programs {
      var p := programs[c.program];
      var lit: seq<Command> := [Viewport(canvas.width, canvas.height), Clear] + SwitchProgram(p, s.program) + Lighting(p.uniforms, c);
      var texturing: seq<Command> := Texturing(p.uniforms, canvas.texture);
      var setup := lit + texturing;
      assert setup[|lit|] == ActiveTexture(TextureUnit) && setup[|lit| + 1] == BindTexture(canvas.texture);
      assert setup[|lit| + 2] == Uniform1i(p.uniforms.sampler, TextureUnit);
      if c.mesh in objects {
        var draw := Draw(ops, p, objects[c.mesh], ops.perspective(canvas.width, canvas.height), ModelView(ops, rotation));
        assert r.commands == setup + draw;
      }
    }
  }

  /** Frames draw the same program repeatedly without switching: after one
      frame with a registered program, the next frame with the same
      selection issues no `useProgram`. */
  lemma SecondFrameDoesNotSwitch(ops: Matrix.MatrixOps<Mat>, programs: Registry.Programs, objects: map<string, Mesh>,
    canvas: Canvas, c: Controls, rotation: Mat, rotation2: Mat, s: RenderState)
    ensures var r1 := DrawScene(ops, programs, objects, canvas, c, rotation, s);
      var r2 := DrawScene(ops, programs, objects, canvas, c, rotation2, r1.state);
      forall k :: 0 <= k < |r2.commands| ==> !r2.commands[k].UseProgram?
  {
    var r1 := DrawScene(ops, programs, objects, canvas, c, rotation, s);
    UseProgramOnlyOnSwitch(ops, programs, objects, canvas, c, rotation2, r1.state);
  }

  /** Over a whole frame the vector uniforms change exactly as the
      lighting block changes them, and not at all when the program is
      missing. */
  lemma FrameLighting(ops: Matrix.MatrixOps<Mat>, programs: Registry.Programs, objects: map<string, Mesh>,
    canvas: Canvas, c: Controls, rotation: Mat, s: RenderState, g: map<nat, Vec3>)
    ensures var r := DrawScene(ops, programs, objects, canvas, c, rotation, s);
      Store3(g, r.commands) == if c.program in programs then Store3(g, Lighting(programs[c.program].uniforms, c)) else g
  {
    var r := DrawScene(ops, programs, objects, canvas, c, rotation, s);
    if c.program in programs {
      var p := programs[c.program];
      if c.mesh in objects {
        SetupLighting(g, p, canvas, c, s.program,
          Draw(ops, p, objects[c.mesh], ops.perspective(canvas.width, canvas.height), ModelView(ops, rotation)));
      } else {
        SetupLighting(g, p, canvas, c, s.program, []);
      }
    } else {
      Store3Untouched(g, r.commands);
    }
  }

  /** The setup commands, and whatever uploads no vector after them, change
      the vector uniforms as the lighting block does. */
  lemma SetupLighting(g: map<nat, Vec3>, p: Registry.Program, canvas: Canvas, c: Controls,
                         current: Option<Registry.Program>, post: seq<Command>)
    requires forall k :: 0 <= k < |post| ==> !post[k].Uniform3f?
    ensures Store3(g, Setup(p, canvas, c, current) + post) == Store3(g, Lighting(p.uniforms, c))
    ensures Store3(g, Setup(p, canvas, c, current)) == Store3(g, Lighting(p.uniforms, c))
  {
    var prologue: seq<Command> := [Viewport(canvas.width, canvas.height), Clear] + SwitchProgram(p, current);
    var lit := prologue + Lighting(p.uniforms, c);
    Store3After(g, prologue, Lighting(p.uniforms, c), []);
    Store3After(g, [], lit, Texturing(p.uniforms, canvas.texture));
    Store3After(g, [], Setup(p, canvas, c, current), post);
  }

  /** A frame with both lookups successful ends with exactly one draw call,
      whose count is the index buffer's item count, and leaves the program
      and the object current. */
  lemma DrawnFrameDrawsIndexCount(ops: Matrix.MatrixOps<Mat>, programs: Registry.Programs, objects: map<string, Mesh>,
    canvas: Canvas, c: Controls, rotation: Mat, s: RenderState)
    requires c.program in programs && c.mesh in objects
    ensures var r := DrawScene(ops, programs, objects, canvas, c, rotation, s);
      && r.commands[|r.commands| - 1] == DrawElements(objects[c.mesh].index.numItems)
      && (forall k :: 0 <= k < |r.commands| - 1 ==> !r.commands[k].DrawElements?)
      && r.state.program == Some(programs[c.program]) && r.state.mesh == Some(objects[c.mesh])
  {
    var r := DrawScene(ops, programs, objects, canvas, c, rotation, s);
    var p := programs[c.program];
    var setup: seq<Command> := Setup(p, canvas, c, s.program);
    var draw := Draw(ops, p, objects[c.mesh], ops.perspective(canvas.width, canvas.height), ModelView(ops, rotation));
    assert r.commands == setup + draw;
    forall k | 0 <= k < |r.commands| - 1
      ensures !r.commands[k].DrawElements?
    {
      if k < |setup| {
        assert !Drawing(setup[k]);
      } else {
        assert r.commands[k] == draw[k - |setup|];
      }
    }
  }

  /** The matrix uploads of a drawn frame: the projection built for the
      canvas and the model-view matrix (pull-back, then the orbit
      rotation) always, and the normal matrix of that model-view matrix
      exactly when the program declares its uniform. */
  lemma DrawnFrameMatrices(ops: Matrix.MatrixOps<Mat>, programs: Registry.Programs, objects: map<string, Mesh>,
    canvas: Canvas, c: Controls, rotation: Mat, s: RenderState)
    requires c.program in programs && c.mesh in objects
    ensures var r := DrawScene(ops, programs, objects, canvas, c, rotation, s);
      var u := programs[c.program].uniforms;
      && UniformMatrix4(u.projection, ops.perspective(canvas.width, canvas.height)) in r.commands
      && UniformMatrix4(u.modelView, ModelView(ops, rotation)) in r.commands
      && ((exists k :: 0 <= k < |r.commands| && r.commands[k].UniformMatrix3?) <==> u.normal.Some?)
      && (u.normal.Some? ==> UniformMatrix3(u.normal.value, ops.normalOf(ModelView(ops, rotation))) in r.commands)
      && r.state.modelView.current == ModelView(ops, rotation)
  {
    var r := DrawScene(ops, programs, objects, canvas, c, rotation, s);
    var p := programs[c.program];
    var setup: seq<Command> := Setup(p, canvas, c, s.program);
    var draw := Draw(ops, p, objects[c.mesh], ops.perspective(canvas.width, canvas.height), ModelView(ops, rotation));
    assert r.commands == setup + draw;
    DrawMatrices(ops, p, objects[c.mesh], ops.perspective(canvas.width, canvas.height), ModelView(ops, rotation));
    NormalUploadsAfterSetup(setup, draw);
  }

  /** The draw commands upload the two matrices they are given, and the
      normal matrix of the model-view one exactly when the program declares
      its uniform. */
  lemma DrawMatrices(ops: Matrix.MatrixOps<Mat>, p: Registry.Program, m: Mesh, projection: Mat, modelView: Mat)
    ensures var d := Draw(ops, p, m, projection, modelView);
      && UniformMatrix4(p.uniforms.projection, projection) in d
      && UniformMatrix4(p.uniforms.modelView, modelView) in d
      && ((exists k :: 0 <= k < |d| && d[k].UniformMatrix3?) <==> p.uniforms.normal.Some?)
      && (p.uniforms.normal.Some? ==> UniformMatrix3(p.uniforms.normal.value, ops.normalOf(modelView)) in d)
  {
    var d := Draw(ops, p, m, projection, modelView);
    var attributes: seq<Command> := Attributes(p.attribs, m);
    var matrices := MatrixUniforms(ops, p.uniforms, projection, modelView);
    var head := attributes + [BindElementBuffer(m.index.id)];
    assert d == head + matrices + [DrawElements(m.index.numItems)];
    assert d[|head|] == matrices[0] && d[|head| + 1] == matrices[1];
    if p.uniforms.normal.Some? {
      assert d[|head| + 2] == matrices[2];
    } else {
      forall k | 0 <= k < |d|
        ensures !d[k].UniformMatrix3?
      {
        if k < |attributes| {
          assert d[k] == attributes[k];
        } else if k >= |head| && k < |head| + |matrices| {
          assert d[k] == matrices[k - |head|];
        }
      }
    }
  }

  /** Setup commands draw nothing, so a normal matrix upload in a frame is
      one in its draw commands. */
  lemma NormalUploadsAfterSetup(setup: seq<Command>, draw: seq<Command>)
    requires forall k :: 0 <= k < |setup| ==> !Drawing(setup[k])
    ensures (exists k :: 0 <= k < |setup + draw| && (setup + draw)[k].UniformMatrix3?) <==>
            (exists k :: 0 <= k < |draw| && draw[k].UniformMatrix3?)
  {
    var cs := setup + draw;
    if exists k :: 0 <= k < |cs| && cs[k].UniformMatrix3? {
      var k :| 0 <= k < |cs| && cs[k].UniformMatrix3?;
      assert k >= |setup| && cs[k] == draw[k - |setup|];
    }
    if exists k :: 0 <= k < |draw| && draw[k].UniformMatrix3? {
      var k :| 0 <= k < |draw| && draw[k].UniformMatrix3?;
      assert cs[|setup| + k] == draw[k];
    }
  }

  /** Each vertex buffer bound is followed by the pointer for its attribute;
      texture coordinates and normals are bound exactly when the program
      has those attributes (location `>= 0`), positions always. */
  ghost predicate AttributesBound(cs: seq<Command>, a: Registry.Attribs, m: Mesh)
  {
    && BindArrayBuffer(m.position.id) in cs
    && (BindArrayBuffer(m.texCoord.id) in cs <==> a.texCoord >= 0)
    && (BindArrayBuffer(m.normal.id) in cs <==> a.normal >= 0)
    && Follows(cs, m.position, a.position)
    && Follows(cs, m.texCoord, a.texCoord)
    && Follows(cs, m.normal, a.normal)
  }

  /** Every bind of buffer b is followed by the pointer of attribute
      `location` at it. */
  ghost predicate Follows(cs: seq<Command>, b: Buffer, location: int)
  {
    forall k :: 0 <= k < |cs| && cs[k] == BindArrayBuffer(b.id) ==>
      k + 1 < |cs| && cs[k + 1] == VertexAttribPointer(location, b.itemSize)
  }

  /** A bind/pointer pair keeps `Follows` for its own buffer and attribute
      and for every other buffer. */
  lemma PairFollows(b: Buffer, location: int, other: Buffer, otherLocation: int)
    requires b.id != other.id || (b == other && location == otherLocation)
    ensures Follows(Pair(b, location), other, otherLocation)
  {
  }

  /** `Follows` is kept by joining two runs when the first does not end
      with a bind. */
  lemma FollowsAppend(x: seq<Command>, y: seq<Command>, b: Buffer, location: int)
    requires Follows(x, b, location) && Follows(y, b, location)
    requires |x| > 0 ==> !x[|x| - 1].BindArrayBuffer?
    ensures Follows(x + y, b, location)
  {
    forall k | 0 <= k < |x + y| && (x + y)[k] == BindArrayBuffer(b.id)
      ensures k + 1 < |x + y| && (x + y)[k + 1] == VertexAttribPointer(location, b.itemSize)
    {
      if k < |x| {
        assert x[k] == BindArrayBuffer(b.id);
      } else {
        assert y[k - |x|] == BindArrayBuffer(b.id);
      }
    }
  }

  /** The attribute block binds each buffer of one mesh whose ids are
      distinct and points the attribute at it right after. */
  lemma AttributesFollow(a: Registry.Attribs, m: Mesh, b: Buffer, location: int)
    requires Labelled(m)
    requires (b == m.position && location == a.position) || (b == m.texCoord && location == a.texCoord)
          || (b == m.normal && location == a.normal)
    ensures Follows(Attributes(a, m), b, location)
  {
    var position: seq<Command> := Pair(m.position, a.position);
    var texCoord: seq<Command> := if a.texCoord >= 0 then Pair(m.texCoord, a.texCoord) else [];
    var normal: seq<Command> := if a.normal >= 0 then Pair(m.normal, a.normal) else [];
    PairFollows(m.position, a.position, b, location);
    if a.texCoord >= 0 {
      PairFollows(m.texCoord, a.texCoord, b, location);
    }
    if a.normal >= 0 {
      PairFollows(m.normal, a.normal, b, location);
    }
    FollowsAppend(position, texCoord, b, location);
    FollowsAppend(position + texCoord, normal, b, location);
  }

  lemma AttributesAreBound(a: Registry.Attribs, m: Mesh)
    requires Labelled(m)
    ensures AttributesBound(Attributes(a, m), a, m)
  {
    var position: seq<Command> := Pair(m.position, a.position);
    var texCoord: seq<Command> := if a.texCoord >= 0 then Pair(m.texCoord, a.texCoord) else [];
    var normal: seq<Command> := if a.normal >= 0 then Pair(m.normal, a.normal) else [];
    var cs := Attributes(a, m);
    assert cs == position + texCoord + normal;
    assert cs[0] == BindArrayBuffer(m.position.id);
    if a.texCoord >= 0 {
      assert cs[2] == BindArrayBuffer(m.texCoord.id);
    }
    if a.normal >= 0 {
      assert cs[|cs| - 2] == BindArrayBuffer(m.normal.id);
    }
    AttributesFollow(a, m, m.position, a.position);
    AttributesFollow(a, m, m.texCoord, a.texCoord);
    AttributesFollow(a, m, m.normal, a.normal);
  }

  /** Commands that bind no vertex buffer, after the attribute block, do
      not disturb what it binds. */
  lemma AttributesBoundAfter(cs: seq<Command>, post: seq<Command>, a: Registry.Attribs, m: Mesh)
    requires AttributesBound(cs, a, m)
    requires forall k :: 0 <= k < |post| ==> !post[k].BindArrayBuffer?
    ensures AttributesBound(cs + post, a, m)
  {
    var all := cs + post;
    forall k | 0 <= k < |all| && all[k].BindArrayBuffer?
      ensures k < |cs| && all[k] == cs[k]
    {
    }
    forall cmd | cmd in cs
      ensures cmd in all
    {
      var j :| 0 <= j < |cs| && cs[j] == cmd;
      assert all[j] == cmd;
    }
  }

  /** Nor do such commands before it. */
  lemma AttributesBoundBefore(pre: seq<Command>, cs: seq<Command>, a: Registry.Attribs, m: Mesh)
    requires AttributesBound(cs, a, m)
    requires forall k :: 0 <= k < |pre| ==> !pre[k].BindArrayBuffer?
    ensures AttributesBound(pre + cs, a, m)
  {
    var all := pre + cs;
    forall k | 0 <= k < |all| && all[k].BindArrayBuffer?
      ensures |pre| <= k && all[k] == cs[k - |pre|]
    {
    }
    forall cmd | cmd in cs
      ensures cmd in all
    {
      var j :| 0 <= j < |cs| && cs[j] == cmd;
      assert all[|pre| + j] == cmd;
    }
  }

  /** The attribute bindings of a drawn frame, as `AttributesBound` states
      them for the program's attributes and the selected object. */
  lemma DrawnFrameAttributes(ops: Matrix.MatrixOps<Mat>, programs: Registry.Programs, objects: map<string, Mesh>,
    canvas: Canvas, c: Controls, rotation: Mat, s: RenderState)
    requires c.program in programs && c.mesh in objects && Labelled(objects[c.mesh])
    ensures var r := DrawScene(ops, programs, objects, canvas, c, rotation, s);
      AttributesBound(r.commands, programs[c.program].attribs, objects[c.mesh])
  {
    var r := DrawScene(ops, programs, objects, canvas, c, rotation, s);
    var p := programs[c.program];
    var setup: seq<Command> := Setup(p, canvas, c, s.program);
    var draw := Draw(ops, p, objects[c.mesh], ops.perspective(canvas.width, canvas.height), ModelView(ops, rotation));
    assert r.commands == setup + draw;
    DrawAttributes(ops, p, objects[c.mesh], ops.perspective(canvas.width, canvas.height), ModelView(ops, rotation));
    AttributesBoundBefore(setup, draw, p.attribs, objects[c.mesh]);
  }

  /** The draw commands bind the attributes as the attribute block does. */
  lemma DrawAttributes(ops: Matrix.MatrixOps<Mat>, p: Registry.Program, m: Mesh, projection: Mat, modelView: Mat)
    requires Labelled(m)
    ensures AttributesBound(Draw(ops, p, m, projection, modelView), p.attribs, m)
  {
    var attributes: seq<Command> := Attributes(p.attribs, m);
    var matrices := MatrixUniforms(ops, p.uniforms, projection, modelView);
    AttributesAreBound(p.attribs, m);
    AttributesBoundAfter(attributes, [BindElementBuffer(m.index.id)], p.attribs, m);
    AttributesBoundAfter(attributes + [BindElementBuffer(m.index.id)], matrices, p.attribs, m);
    AttributesBoundAfter(attributes + [BindElementBuffer(m.index.id)] + matrices, [DrawElements(m.index.numItems)], p.attribs, m);
  }

  /** Selecting the lambert program and the sphere with ambient lighting
      off and a white point light at (0, 0, 10): the light uniforms hold
      exactly that position and colour, the ambient colour is zero, and the
      frame ends by drawing the default sphere's 2400 indices. */
  lemma LambertSphereExample(ops: Matrix.MatrixOps<Mat>, programs: Registry.Programs, objects: map<string, Mesh>,
    canvas: Canvas, rotation: Mat, s: RenderState, g: map<nat, Vec3>, shininess: real, ambient: Vec3)
    requires "lambert" in programs && "sphere" in objects
    requires programs["lambert"].uniforms.ambientColor.Some?
    requires programs["lambert"].uniforms.pointLightingLocation.Some?
    requires programs["lambert"].uniforms.pointLightingColor.Some?
    requires DistinctLightUniforms(programs["lambert"].uniforms)
    requires objects["sphere"].index.numItems == 6 * (Sphere.LatitudeBands * Sphere.LongitudeBands)
    ensures var c := Controls("lambert", "sphere", shininess, false, ambient, true, Vec3(0.0, 0.0, 10.0), Vec3(1.0, 1.0, 1.0));
      var r := DrawScene(ops, programs, objects, canvas, c, rotation, s);
      var after := Store3(g, r.commands);
      var u := programs["lambert"].uniforms;
      && u.ambientColor.value in after && after[u.ambientColor.value] == Zero
      && u.pointLightingLocation.value in after && after[u.pointLightingLocation.value] == Vec3(0.0, 0.0, 10.0)
      && u.pointLightingColor.value in after && after[u.pointLightingColor.value] == Vec3(1.0, 1.0, 1.0)
      && r.commands[|r.commands| - 1] == DrawElements(2400)
  {
    var c := Controls("lambert", "sphere", shininess, false, ambient, true, Vec3(0.0, 0.0, 10.0), Vec3(1.0, 1.0, 1.0));
    FrameLighting(ops, programs, objects, canvas, c, rotation, s, g);
    LightingEffect(g, programs["lambert"].uniforms, c);
    DrawnFrameDrawsIndexCount(ops, programs, objects, canvas, c, rotation, s);
  }
}

=== FILE: gl.dfy ===
/** GPU-side values shared by the meshes and the frame: vectors, buffer
    identities and the buffer and mesh records the source builds. */
module Gl {

  datatype Vec3 = Vec3(x: real, y: real, z: real)

  const Zero: Vec3 := Vec3(0.0, 0.0, 0.0)

  datatype BufferKind = PositionBuffer | NormalBuffer | TextureCoordBuffer | IndexBuffer

  /** A buffer is identified by its mesh and its role, as its display name
      (mesh name followed by the role) identifies it in the source. */
  datatype BufferId = BufferId(mesh: string, kind: BufferKind)

  /** An uploaded buffer: `itemSize` floats (or indices) per item and the
      item count the draw code reads. */
  datatype Buffer = Buffer(id: BufferId, itemSize: nat, numItems: nat)

  /** A drawable object: its four buffers. */
  datatype Mesh = Mesh(name: string, position: Buffer, normal: Buffer, texCoord: Buffer, index: Buffer)

  /** The arrays uploaded into a mesh's buffers. */
  datatype MeshData = MeshData(positions: seq<real>, normals: seq<real>, texCoords: seq<real>, indices: seq<int>)

  /** Each of the mesh's buffers carries the mesh's name and its own role,
      so the four are distinct. */
  ghost predicate Labelled(m: Mesh)
  {
    && m.position.id == BufferId(m.name, PositionBuffer) && m.normal.id == BufferId(m.name, NormalBuffer)
    && m.texCoord.id == BufferId(m.name, TextureCoordBuffer) && m.index.id == BufferId(m.name, IndexBuffer)
  }

  /** The four buffers of the object named `name` (the `object`
      constructor), with the item sizes and item counts the builder sets. */
  function NewMesh(name: string, positions: nat, normals: nat, texCoords: nat, indices: nat): (m: Mesh)
    ensures m.name == name && Labelled(m)
    ensures m.position.itemSize == 3 && m.normal.itemSize == 3 && m.texCoord.itemSize == 2 && m.index.itemSize == 1
    ensures m.position.numItems == positions && m.normal.numItems == normals
    ensures m.texCoord.numItems == texCoords && m.index.numItems == indices
  {
    Mesh(name,
      Buffer(BufferId(name, PositionBuffer), 3, positions),
      Buffer(BufferId(name, NormalBuffer), 3, normals),
      Buffer(BufferId(name, TextureCoordBuffer), 2, texCoords),
      Buffer(BufferId(name, IndexBuffer), 1, indices))
  }

  /** The buffers' declared sizes agree with the uploaded data: each buffer
      holds numItems * itemSize values, the three vertex buffers describe the
      same number of vertices, and the index count is whole triangles. */
  ghost predicate Consistent(m: Mesh, d: MeshData)
  {
    && m.position.itemSize == 3 && m.normal.itemSize == 3
    && m.texCoord.itemSize == 2 && m.index.itemSize == 1
    && |d.positions| == m.position.numItems * 3
    && |d.normals| == m.normal.numItems * 3
    && |d.texCoords| == m.texCoord.numItems * 2
    && |d.indices| == m.index.numItems
    && m.position.numItems == m.normal.numItems == m.texCoord.numItems
    && m.index.numItems % 3 == 0
    && (forall k :: 0 <= k < |d.indices| ==> 0 <= d.indices[k] < m.position.numItems)
  }

  /** Buffers sized from arrays of `vertices` vertices and `3 * triangles`
      in-range indices describe those arrays consistently. */
  lemma MeshConsistent(name: string, d: MeshData, vertices: nat, triangles: nat)
    requires |d.positions| == 3 * vertices && |d.normals| == 3 * vertices && |d.texCoords| == 2 * vertices
    requires |d.indices| == 3 * triangles
    requires forall k :: 0 <= k < |d.indices| ==> 0 <= d.indices[k] < vertices
    ensures var m := NewMesh(name, |d.positions| / 3, |d.normals| / 3, |d.texCoords| / 2, |d.indices|);
      && Consistent(m, d) && m.position.numItems == vertices && m.index.numItems == 3 * triangles
  {
  }
}

=== FILE: loader.dfy ===
/** The batch loader (`loadFiles`): N requests are started together and each
    one reports once, as a completion carrying the response text or as a
    failure carrying its url. The loader counts completions and signals
    success when the counter reaches N; failures go straight to the error
    callback and are never counted. */
module Loader {

  /** What one request reports when it is done: the text for its index when
      the status is 200, otherwise its url. */
  datatype Event = Complete(index: nat, text: string) | Fail(url: string)

  /** A call of one of the two callbacks handed to the loader. */
  datatype Signal = Success(result: map<nat, string>) | Error(url: string)

  /** The loader's closure state: the number of urls, the completion counter
      and the (sparse) result array indexed by request position. */
  datatype Batch = Batch(numUrls: nat, numComplete: nat, result: map<nat, string>)

  /** What the server answers for one url. */
  datatype Response = Ok(text: string) | NotOk

  /** A fresh batch for the given urls. */
  function Start(urls: seq<string>): Batch
  {
    Batch(|urls|, 0, map[])
  }

  /** Handles one event: a completion stores its text at its index, bumps the
      counter and calls success when the counter has just reached the number
      of urls; a failure calls the error callback and changes nothing. */
  function Deliver(b: Batch, e: Event): (r: (Batch, seq<Signal>))
    ensures e.Fail? ==> r.0 == b && r.1 == [Error(e.url)]
    ensures e.Complete? ==> r.0.numUrls == b.numUrls && r.0.numComplete == b.numComplete + 1
    ensures e.Complete? ==> e.index in r.0.result && r.0.result[e.index] == e.text
    ensures e.Complete? ==> forall i :: i in b.result && i != e.index ==> i in r.0.result && r.0.result[i] == b.result[i]
    ensures e.Complete? ==> r.0.result.Keys == b.result.Keys + {e.index}
    ensures |r.1| <= 1
    ensures (exists m :: Success(m) in r.1) <==> e.Complete? && b.numComplete + 1 == b.numUrls
    ensures e.Complete? ==> r.1 == (if b.numComplete + 1 == b.numUrls then [Success(r.0.result)] else [])
  {
    match e
    case Fail(url) => (b, [Error(url)])
    case Complete(i, text) =>
      var b' := Batch(b.numUrls, b.numComplete + 1, b.result[i := text]);
      if b'.numComplete == b.numUrls then (b', [Success(b'.result)]) else (b', [])
  }

  /** Delivers the events one after another, collecting the callback calls. */
  function Run(b: Batch, es: seq<Event>): (Batch, seq<Signal>)
    decreases |es|
  {
    if |es| == 0 then (b, [])
    else
      var step := Deliver(b, es[0]);
      var rest := Run(step.0, es[1..]);
      (rest.0, step.1 + rest.1)
  }

  /** Number of completion events in a sequence of events. */
  function Completions(es: seq<Event>): nat
  {
    if |es| == 0 then 0 else (if es[0].Complete? then 1 else 0) + Completions(es[1..])
  }

  /** Number of success calls in a sequence of callback calls. */
  function Successes(ss: seq<Signal>): nat
  {
    if |ss| == 0 then 0 else (if ss[0].Success? then 1 else 0) + Successes(ss[1..])
  }

  lemma {:induction false} SuccessesAll(ss: seq<Signal>)
    requires forall k :: 0 <= k < |ss| ==> ss[k].Success?
    ensures Successes(ss) == |ss|
  {
    if |ss| > 0 {
      SuccessesAll(ss[1..]);
    }
  }

  lemma {:induction false} SuccessesAppend(a: seq<Signal>, b: seq<Signal>)
    ensures Successes(a + b) == Successes(a) + Successes(b)
  {
    if |a| > 0 {
      assert (a + b)[1..] == a[1..] + b;
      SuccessesAppend(a[1..], b);
    } else {
      assert a + b == b;
    }
  }

  lemma {:induction false} SuccessesNone(ss: seq<Signal>)
    ensures Successes(ss) == 0 <==> forall k :: 0 <= k < |ss| ==> !ss[k].Success?
  {
    if |ss| > 0 {
      SuccessesNone(ss[1..]);
      assert forall k :: 1 <= k < |ss| ==> ss[k] == ss[1..][k - 1];
    }
  }

  /** Running the events leaves the number of urls alone and advances the
      counter by exactly the number of completions among them. */
  lemma {:induction false} RunCounts(b: Batch, es: seq<Event>)
    ensures Run(b, es).0.numUrls == b.numUrls
    ensures Run(b, es).0.numComplete == b.numComplete + Completions(es)
    decreases |es|
  {
    if |es| > 0 {
      RunCounts(Deliver(b, es[0]).0, es[1..]);
    }
  }

  /** Success is called exactly once when the counter crosses the number of
      urls during the run, and never otherwise: it fires neither before the
      N-th completion nor a second time after it. */
  lemma {:induction false} SuccessFiresOnCrossing(b: Batch, es: seq<Event>)
    ensures Successes(Run(b, es).1) ==
      (if b.numComplete < b.numUrls <= b.numComplete + Completions(es) then 1 else 0)
    decreases |es|
  {
    if |es| > 0 {
      var step := Deliver(b, es[0]);
      SuccessFiresOnCrossing(step.0, es[1..]);
      SuccessesAppend(step.1, Run(step.0, es[1..]).1);
      if step.1 != [] && step.1[0].Success? {
        assert Successes(step.1) == 1;
      } else {
        assert Successes(step.1) == 0 by {
          SuccessesNone(step.1);
        }
      }
    }
  }

  /** The positions 0..n-1 in order. */
  function Indices(n: nat): (r: seq<nat>)
    ensures |r| == n && forall k :: 0 <= k < n ==> r[k] == k
  {
    seq(n, k => k)
  }

  /** `order` lists the request positions in the order their responses
      arrive: every position exactly once, in any order. */
  ghost predicate IsArrivalOrder(order: seq<nat>, n: nat)
  {
    && |order| == n
    && (forall k :: 0 <= k < |order| ==> order[k] < n)
    && multiset(order) == multiset(Indices(n))
  }

  lemma ArrivalOrderCovers(order: seq<nat>, n: nat, i: nat)
    requires IsArrivalOrder(order, n)
    ensures i < n <==> i in order
  {
    if i < n {
      assert Indices(n)[i] == i;
      assert i in multiset(Indices(n));
    }
  }

  /** The event the request at position i reports. */
  function EventOf(urls: seq<string>, responses: seq<Response>, i: nat): Event
    requires i < |urls| == |responses|
  {
    match responses[i]
    case Ok(text) => Complete(i, text)
    case NotOk => Fail(urls[i])
  }

  /** The events of a batch, in arrival order. */
  function Arrivals(urls: seq<string>, responses: seq<Response>, order: seq<nat>): (es: seq<Event>)
    requires |urls| == |responses|
    requires forall k :: 0 <= k < |order| ==> order[k] < |urls|
    ensures |es| == |order|
    ensures forall k :: 0 <= k < |order| ==> es[k] == EventOf(urls, responses, order[k])
  {
    seq(|order|, k requires 0 <= k < |order| => EventOf(urls, responses, order[k]))
  }

  ghost predicate AllOk(responses: seq<Response>)
  {
    forall i :: 0 <= i < |responses| ==> responses[i].Ok?
  }

  /** The result array a fully successful batch should hand to its caller:
      entry i is the text of url i. */
  function Expected(responses: seq<Response>): (m: map<nat, string>)
    requires AllOk(responses)
    ensures forall i: nat :: i in m <==> i < |responses|
    ensures forall i :: 0 <= i < |responses| ==> m[i] == responses[i].text
  {
    map i: nat | i < |responses| :: responses[i].text
  }

  lemma {:induction false} AllOkCompletesEverything(es: seq<Event>)
    requires forall k :: 0 <= k < |es| ==> es[k].Complete?
    ensures Completions(es) == |es|
  {
    if |es| > 0 {
      AllOkCompletesEverything(es[1..]);
    }
  }

  lemma {:induction false} FailureCostsACompletion(es: seq<Event>, j: nat)
    requires j < |es| && es[j].Fail?
    ensures Completions(es) < |es|
  {
    if j > 0 {
      FailureCostsACompletion(es[1..], j - 1);
    } else {
      CompletionsAtMost(es[1..]);
    }
  }

  lemma {:induction false} CompletionsAtMost(es: seq<Event>)
    ensures Completions(es) <= |es|
  {
    if |es| > 0 {
      CompletionsAtMost(es[1..]);
    }
  }

  /** The result array after completions only: it holds exactly the texts of
      the positions that have arrived. */
  lemma {:induction false} RunResult(b: Batch, urls: seq<string>, responses: seq<Response>, order: seq<nat>)
    requires |urls| == |responses| && AllOk(responses)
    requires forall k :: 0 <= k < |order| ==> order[k] < |urls|
    requires forall i :: i in b.result ==> i < |responses| && b.result[i] == responses[i].text
    ensures Run(b, Arrivals(urls, responses, order)).0.result.Keys == b.result.Keys + set k | 0 <= k < |order| :: order[k]
    ensures forall i :: i in Run(b, Arrivals(urls, responses, order)).0.result ==>
              i < |responses| && Run(b, Arrivals(urls, responses, order)).0.result[i] == responses[i].text
    decreases |order|
  {
    if |order| > 0 {
      var e := EventOf(urls, responses, order[0]);
      assert e == Complete(order[0], responses[order[0]].text);
      RunArrivalsStep(b, urls, responses, order);
      RunResult(Deliver(b, e).0, urls, responses, order[1..]);
      PositionsHeadTail(order);
    }
  }

  /** Running a batch's events is delivering the first arrival and running
      the rest. */
  lemma RunArrivalsStep(b: Batch, urls: seq<string>, responses: seq<Response>, order: seq<nat>)
    requires |urls| == |responses| && |order| > 0
    requires forall k :: 0 <= k < |order| ==> order[k] < |urls|
    ensures Run(b, Arrivals(urls, responses, order)).0 ==
              Run(Deliver(b, EventOf(urls, responses, order[0])).0, Arrivals(urls, responses, order[1..])).0
  {
    var es := Arrivals(urls, responses, order);
    assert es[1..] == Arrivals(urls, responses, order[1..]);
  }

  /** The set of positions listed by a non-empty order: its first one and
      those of the rest. */
  lemma PositionsHeadTail(order: seq<nat>)
    requires |order| > 0
    ensures (set k | 0 <= k < |order| :: order[k]) == {order[0]} + set k | 0 <= k < |order[1..]| :: order[1..][k]
  {
    var tail := set k | 0 <= k < |order[1..]| :: order[1..][k];
    var all := set k | 0 <= k < |order| :: order[k];
    forall x | x in all ensures x in {order[0]} + tail {
      var k :| 0 <= k < |order| && order[k] == x;
      if k > 0 { assert order[1..][k - 1] == x; }
    }
    forall x | x in tail ensures x in all {
      var k :| 0 <= k < |order[1..]| && order[1..][k] == x;
      assert order[k + 1] == x;
    }
  }

  /** Once every position has arrived with its text, the result array is
      the expected one. */
  lemma AllArrivedResult(urls: seq<string>, responses: seq<Response>, order: seq<nat>)
    requires |urls| == |responses| && AllOk(responses)
    requires IsArrivalOrder(order, |urls|)
    ensures Run(Start(urls), Arrivals(urls, responses, order)).0.result == Expected(responses)
  {
    RunResult(Start(urls), urls, responses, order);
    var final := Run(Start(urls), Arrivals(urls, responses, order)).0;
    forall i | i in final.result ensures i in Expected(responses) { }
    forall i: nat | i < |responses| ensures i in final.result {
      ArrivalOrderCovers(order, |urls|, i);
      var j :| 0 <= j < |order| && order[j] == i;
    }
  }

  /** Running events followed by one more. */
  lemma RunLast(b: Batch, es: seq<Event>, e: Event)
    ensures Run(b, es + [e]).0 == Deliver(Run(b, es).0, e).0
    ensures Run(b, es + [e]).1 == Run(b, es).1 + Deliver(Run(b, es).0, e).1
  {
    RunSplit(b, es, [e]);
    var mid := Run(b, es).0;
    assert [e][1..] == [];
    assert Run(mid, [e]) == (Deliver(mid, e).0, Deliver(mid, e).1 + []);
    assert Deliver(mid, e).1 + [] == Deliver(mid, e).1;
  }

  /** When every request succeeds, success is called exactly once, whatever
      the arrival order, and entry i of the array it receives is the text of
      url i. An empty batch never calls success: the counter is only checked
      after an increment. */
  lemma BatchSucceedsOnce(urls: seq<string>, responses: seq<Response>, order: seq<nat>)
    requires |urls| == |responses| && AllOk(responses)
    requires IsArrivalOrder(order, |urls|)
    ensures Run(Start(urls), Arrivals(urls, responses, order)).1 ==
      (if |urls| == 0 then [] else [Success(Expected(responses))])
  {
    var es := Arrivals(urls, responses, order);
    if |urls| > 0 {
      var k := |order| - 1;
      var prefix := Arrivals(urls, responses, order[..k]);
      assert es == prefix + [es[k]];
      RunLast(Start(urls), prefix, es[k]);
      var mid := Run(Start(urls), prefix);
      AllOkCompletesEverything(prefix);
      SuccessFiresOnCrossing(Start(urls), prefix);
      NoErrorsWhenAllOk(Start(urls), urls, responses, order[..k]);
      SuccessesAll(mid.1);
      RunCounts(Start(urls), prefix);
      AllArrivedResult(urls, responses, order);
    }
  }

  /** Running two sequences of events one after the other. */
  lemma {:induction false} RunSplit(b: Batch, xs: seq<Event>, ys: seq<Event>)
    ensures Run(b, xs + ys).0 == Run(Run(b, xs).0, ys).0
    ensures Run(b, xs + ys).1 == Run(b, xs).1 + Run(Run(b, xs).0, ys).1
    decreases |xs|
  {
    if |xs| > 0 {
      assert (xs + ys)[0] == xs[0];
      assert (xs + ys)[1..] == xs[1..] + ys;
      RunSplit(Deliver(b, xs[0]).0, xs[1..], ys);
    } else {
      assert xs + ys == ys;
    }
  }

  lemma {:induction false} NoErrorsWhenAllOk(b: Batch, urls: seq<string>, responses: seq<Response>, order: seq<nat>)
    requires |urls| == |responses| && AllOk(responses)
    requires forall k :: 0 <= k < |order| ==> order[k] < |urls|
    ensures forall k :: 0 <= k < |Run(b, Arrivals(urls, responses, order)).1| ==>
              Run(b, Arrivals(urls, responses, order)).1[k].Success?
    decreases |order|
  {
    if |order| > 0 {
      var es := Arrivals(urls, responses, order);
      assert es[1..] == Arrivals(urls, responses, order[1..]);
      NoErrorsWhenAllOk(Deliver(b, es[0]).0, urls, responses, order[1..]);
    }
  }

  /** When every response is a 200, no callback has been called before the
      last response arrives. (A failure calls the error callback as soon as
      it arrives; success alone is never early, by `SuccessFiresOnCrossing`.) */
  lemma NoSuccessBeforeLastArrival(urls: seq<string>, responses: seq<Response>, order: seq<nat>, k: nat)
    requires |urls| == |responses| && AllOk(responses)
    requires IsArrivalOrder(order, |urls|)
    requires k < |urls|
    ensures Run(Start(urls), Arrivals(urls, responses, order[..k])).1 == []
  {
    var es := Arrivals(urls, responses, order[..k]);
    AllOkCompletesEverything(es);
    SuccessFiresOnCrossing(Start(urls), es);
    NoErrorsWhenAllOk(Start(urls), urls, responses, order[..k]);
    SuccessesAll(Run(Start(urls), es).1);
  }

  /** One failed request is enough to keep success from ever being called:
      the failure is never counted, so the counter cannot reach N. */
  lemma AnyFailureBlocksSuccess(urls: seq<string>, responses: seq<Response>, order: seq<nat>, i: nat)
    requires |urls| == |responses| && IsArrivalOrder(order, |urls|)
    requires i < |responses| && responses[i].NotOk?
    ensures Successes(Run(Start(urls), Arrivals(urls, responses, order)).1) == 0
    ensures Error(urls[i]) in Run(Start(urls), Arrivals(urls, responses, order)).1
  {
    ArrivalOrderCovers(order, |urls|, i);
    var j :| 0 <= j < |order| && order[j] == i;
    var es := Arrivals(urls, responses, order);
    FailureCostsACompletion(es, j);
    SuccessFiresOnCrossing(Start(urls), es);
    assert es == es[..j] + [es[j]] + es[j + 1..];
    RunSplit(Start(urls), es[..j] + [es[j]], es[j + 1..]);
    RunSplit(Start(urls), es[..j], [es[j]]);
  }
}

=== FILE: matrix.dfy ===
/** The 4x4 matrix arithmetic the renderer borrows from its matrix library,
    kept abstract: the model never looks inside a matrix, it only records
    which products are formed and in which order. */
module Matrix {

  /** The library operations the core uses, as total functions over an
      opaque matrix type `M`. */
  datatype MatrixOps<!M> = MatrixOps(
    /** the identity matrix (`mat4.identity`) */
    identity: M,
    /** the product a x b (`mat4.multiply(a, b, dest)`) */
    mul: (M, M) -> M,
    /** rotation by the given angle in degrees about the world Y axis */
    rotY: real -> M,
    /** rotation by the given angle in degrees about the world X axis */
    rotX: real -> M,
    /** translation by (0, 0, -6), the fixed camera pull-back */
    pullBack: M,
    /** transpose of the inverse of the upper 3x3 block (the normal matrix) */
    normalOf: M -> M,
    /** 45 degree perspective for a viewport of the given width and height,
        near plane 0.1 and far plane 100 */
    perspective: (int, int) -> M
  )

  /** Matrix product is associative, as it is for real 4x4 matrices. */
  ghost predicate Associative<M(!new)>(ops: MatrixOps<M>)
  {
    forall a, b, c :: ops.mul(ops.mul(a, b), c) == ops.mul(a, ops.mul(b, c))
  }
}

=== FILE: objects.dfy ===
/** The scene's objects (`initObjects`): the sphere with its default band
    counts and the cube, stored by name. */
module Objects {
  import opened Gl
  import Sphere
  import Cube

  /** A mesh stored under its own name, with buffers that describe its
      arrays. */
  ghost predicate Stored(name: string, m: Mesh, d: MeshData)
  {
    m.name == name && Labelled(m) && Consistent(m, d)
  }

  /** The object table: each mesh under its name. */
  function Table(sphere: Mesh, sphereData: MeshData, cube: Mesh, cubeData: MeshData): (r: (map<string, Mesh>, map<string, MeshData>))
    requires Stored("sphere", sphere, sphereData) && Stored("cube", cube, cubeData)
    ensures r.0.Keys == {"sphere", "cube"} && r.1.Keys == r.0.Keys
    ensures r.0["sphere"] == sphere && r.0["cube"] == cube
    ensures forall name :: name in r.0 ==> Stored(name, r.0[name], r.1[name])
  {
    assert "sphere"[0] != "cube"[0];
    (map["sphere" := sphere, "cube" := cube], map["sphere" := sphereData, "cube" := cubeData])
  }

  /** Builds both meshes. The sphere's unit normals come from the caller,
      since they are trigonometry. */
  method InitObjects(normalAt: (nat, nat) -> Vec3) returns (objects: map<string, Mesh>, data: map<string, MeshData>)
    ensures objects.Keys == {"sphere", "cube"} && data.Keys == objects.Keys
    ensures forall name :: name in objects ==> Stored(name, objects[name], data[name])
    ensures objects["sphere"].index.numItems == 2400 && objects["sphere"].position.numItems == 441
    ensures objects["cube"].index.numItems == 36 && objects["cube"].position.numItems == 24
  {
    var sphere, sphereData := Sphere.InitSphere(Sphere.LatitudeBands, Sphere.LongitudeBands, normalAt);
    Sphere.DefaultCounts();
    var cube := Cube.InitCube();
    var table := Table(sphere, sphereData, cube.0, cube.1);
    objects, data := table.0, table.1;
  }
}

=== FILE: orbit.dfy ===
/** The orbit controller (`handleMouseDown` / `Up` / `Move`): while the
    button is held, each move turns the cursor movement since the last event
    into an incremental rotation (a delta of 8 pixels is one degree;
    horizontal about the Y axis, vertical about the X axis) and multiplies it
    onto the accumulated rotation from the left. */
module Orbit {
  import Matrix

  /** The controller state. The last cursor position starts as null in the
      source; null reads as 0 in a subtraction, and no move is handled
      before a press sets it anyway. */
  datatype Orbit<M> = Orbit(mouseDown: bool, lastX: int, lastY: int, rotation: M)

  /** A mouse event with its client coordinates. */
  datatype Input = Down(x: int, y: int) | Up | Move(x: int, y: int)

  /** Released, and the accumulated rotation is the identity. */
  function Init<M>(ops: Matrix.MatrixOps<M>): Orbit<M>
  {
    Orbit(false, 0, 0, ops.identity)
  }

  /** The rotation for one move: start from the identity, rotate by dx/8
      degrees about Y, then by dy/8 degrees about X. */
  function Increment<M>(ops: Matrix.MatrixOps<M>, dx: int, dy: int): M
  {
    ops.mul(ops.mul(ops.identity, ops.rotY(dx as real / 8.0)), ops.rotX(dy as real / 8.0))
  }

  /** Pressing the button anchors the cursor; the rotation is kept. */
  function MouseDown<M>(o: Orbit<M>, x: int, y: int): (r: Orbit<M>)
    ensures r.mouseDown && r.lastX == x && r.lastY == y && r.rotation == o.rotation
  {
    Orbit(true, x, y, o.rotation)
  }

  /** Releasing the button clears the flag and nothing else. */
  function MouseUp<M>(o: Orbit<M>): (r: Orbit<M>)
    ensures !r.mouseDown
    ensures r.lastX == o.lastX && r.lastY == o.lastY && r.rotation == o.rotation
  {
    o.(mouseDown := false)
  }

  /** A move while released changes nothing; while pressed, the deltas are
      new minus last, the increment is multiplied in from the left and the
      new position becomes the last one. */
  function MouseMove<M>(ops: Matrix.MatrixOps<M>, o: Orbit<M>, x: int, y: int): (r: Orbit<M>)
    ensures !o.mouseDown ==> r == o
    ensures o.mouseDown ==> r.mouseDown && r.lastX == x && r.lastY == y
    ensures o.mouseDown ==> r.rotation == ops.mul(Increment(ops, x - o.lastX, y - o.lastY), o.rotation)
  {
    if !o.mouseDown then o
    else
      var increment := Increment(ops, x - o.lastX, y - o.lastY);
      Orbit(true, x, y, ops.mul(increment, o.rotation))
  }

  function Handle<M>(ops: Matrix.MatrixOps<M>, o: Orbit<M>, e: Input): Orbit<M>
  {
    match e
    case Down(x, y) => MouseDown(o, x, y)
    case Up => MouseUp(o)
    case Move(x, y) => MouseMove(ops, o, x, y)
  }

  /** Handles the events in order. */
  function Replay<M>(ops: Matrix.MatrixOps<M>, o: Orbit<M>, es: seq<Input>): Orbit<M>
    decreases |es|
  {
    if |es| == 0 then o else Replay(ops, Handle(ops, o, es[0]), es[1..])
  }

  /** Moves to the given points, one event per point. */
  function Moves(xs: seq<int>, ys: seq<int>): (es: seq<Input>)
    requires |xs| == |ys|
    ensures |es| == |xs| && forall k :: 0 <= k < |xs| ==> es[k] == Move(xs[k], ys[k])
  {
    seq(|xs|, k requires 0 <= k < |xs| => Move(xs[k], ys[k]))
  }

  /** Differences between consecutive positions, starting from an anchor. */
  function Deltas(anchor: int, ps: seq<int>): (ds: seq<int>)
    ensures |ds| == |ps|
    decreases |ps|
  {
    if |ps| == 0 then [] else [ps[0] - anchor] + Deltas(ps[0], ps[1..])
  }

  function Sum(ds: seq<int>): int
  {
    if |ds| == 0 then 0 else ds[0] + Sum(ds[1..])
  }

  /** The deltas of a drag add up to the distance from the anchor to the
      last position: no movement is lost or counted twice. */
  lemma {:induction false} DeltasTelescope(anchor: int, ps: seq<int>)
    requires |ps| > 0
    ensures Sum(Deltas(anchor, ps)) == ps[|ps| - 1] - anchor
    decreases |ps|
  {
    if |ps| > 1 {
      DeltasTelescope(ps[0], ps[1..]);
    }
  }

  /** Left-multiplies the increments, in order, onto a rotation. */
  function Accumulate<M>(ops: Matrix.MatrixOps<M>, r: M, incs: seq<M>): M
    decreases |incs|
  {
    if |incs| == 0 then r else Accumulate(ops, ops.mul(incs[0], r), incs[1..])
  }

  /** The increments for a sequence of per-move deltas. */
  function Increments<M>(ops: Matrix.MatrixOps<M>, dxs: seq<int>, dys: seq<int>): (incs: seq<M>)
    requires |dxs| == |dys|
    ensures |incs| == |dxs| && forall k :: 0 <= k < |dxs| ==> incs[k] == Increment(ops, dxs[k], dys[k])
  {
    seq(|dxs|, k requires 0 <= k < |dxs| => Increment(ops, dxs[k], dys[k]))
  }

  /** A drag while pressed: the controller ends at the last position, still
      pressed, and its rotation is the start rotation with the increment of
      every move multiplied in from the left, in order. */
  lemma {:induction false} DragAccumulates<M>(ops: Matrix.MatrixOps<M>, o: Orbit<M>, xs: seq<int>, ys: seq<int>)
    requires o.mouseDown && |xs| == |ys| && |xs| > 0
    ensures Replay(ops, o, Moves(xs, ys)).mouseDown
    ensures Replay(ops, o, Moves(xs, ys)).lastX == xs[|xs| - 1]
    ensures Replay(ops, o, Moves(xs, ys)).lastY == ys[|ys| - 1]
    ensures Replay(ops, o, Moves(xs, ys)).rotation ==
      Accumulate(ops, o.rotation, Increments(ops, Deltas(o.lastX, xs), Deltas(o.lastY, ys)))
    decreases |xs|
  {
    var es := Moves(xs, ys);
    var o1 := MouseMove(ops, o, xs[0], ys[0]);
    assert Handle(ops, o, es[0]) == o1;
    var incs := Increments(ops, Deltas(o.lastX, xs), Deltas(o.lastY, ys));
    assert incs[0] == Increment(ops, xs[0] - o.lastX, ys[0] - o.lastY);
    if |xs| == 1 {
      assert es[1..] == [];
      assert incs[1..] == [];
    } else {
      assert es[1..] == Moves(xs[1..], ys[1..]);
      DragAccumulates(ops, o1, xs[1..], ys[1..]);
      assert incs[1..] == Increments(ops, Deltas(xs[0], xs[1..]), Deltas(ys[0], ys[1..]));
    }
  }

  /** The increments of a drag composed into one: the last one outermost. */
  function Product<M>(ops: Matrix.MatrixOps<M>, incs: seq<M>): M
    requires |incs| > 0
    decreases |incs|
  {
    if |incs| == 1 then incs[0] else ops.mul(Product(ops, incs[1..]), incs[0])
  }

  /** With an associative product, accumulating move by move equals
      multiplying the composed increment once onto the start rotation: the
      accumulated rotation is only ever left-multiplied, never replaced. */
  lemma {:induction false} AccumulateIsLeftProduct<M(!new)>(ops: Matrix.MatrixOps<M>, r: M, incs: seq<M>)
    requires Matrix.Associative(ops) && |incs| > 0
    ensures Accumulate(ops, r, incs) == ops.mul(Product(ops, incs), r)
    decreases |incs|
  {
    if |incs| > 1 {
      AccumulateIsLeftProduct(ops, ops.mul(incs[0], r), incs[1..]);
      assert ops.mul(Product(ops, incs[1..]), ops.mul(incs[0], r))
          == ops.mul(ops.mul(Product(ops, incs[1..]), incs[0]), r);
    }
  }

  /** Moves while released are all ignored. */
  lemma {:induction false} ReleasedMovesAreIgnored<M>(ops: Matrix.MatrixOps<M>, o: Orbit<M>, xs: seq<int>, ys: seq<int>)
    requires !o.mouseDown && |xs| == |ys|
    ensures Replay(ops, o, Moves(xs, ys)) == o
    decreases |xs|
  {
    if |xs| > 0 {
      assert Moves(xs, ys)[1..] == Moves(xs[1..], ys[1..]);
      ReleasedMovesAreIgnored(ops, o, xs[1..], ys[1..]);
    }
  }

  /** Press at (100, 100) and move to (108, 100): an 8 pixel horizontal
      delta, so one degree about Y and none about X, applied to the start
      rotation from the left. */
  lemma EightPixelsIsOneDegree<M>(ops: Matrix.MatrixOps<M>)
    ensures Replay(ops, Init(ops), [Down(100, 100), Move(108, 100)]).rotation ==
      ops.mul(ops.mul(ops.mul(ops.identity, ops.rotY(1.0)), ops.rotX(0.0)), ops.identity)
  {
    var o1 := Handle(ops, Init(ops), Down(100, 100));
    var o2 := Handle(ops, o1, Move(108, 100));
    assert [Down(100, 100), Move(108, 100)][1..] == [Move(108, 100)];
    assert Replay(ops, o1, [Move(108, 100)]) == Replay(ops, o2, []);
    assert (108 - 100) as real / 8.0 == 1.0;
  }
}

=== FILE: registry.dfy ===
/** The shader program registry (`compileShaders`): the two source files of
    a program are fetched as one batch; when both have arrived each stage is
    compiled, the stages are linked into a program, the attribute and
    uniform locations are looked up, and the program is stored under its
    name. Everything the GPU decides (compile and link status, handles,
    locations) arrives as a `GpuReport`. */
module Registry {
  import opened Wrappers
  import Loader

  datatype Stage = VertexStage | FragmentStage

  /** A compiled shader stage and the source text it was compiled from. */
  datatype Shader = Shader(stage: Stage, handle: nat, source: string)

  /** What the GPU says about compiling one stage. */
  datatype StageReport = StageReport(handle: nat, compiled: bool, log: string)

  /** A program object after linking: its display name, its handle, the
      stages attached to it (absent when that stage failed to compile) and
      the link status. */
  datatype Linked = Linked(name: string, handle: nat, vertex: Option<Shader>, fragment: Option<Shader>, linked: bool)

  /** Attribute locations as the GPU reports them: -1 when the shader does
      not declare the attribute. */
  datatype Attribs = Attribs(position: int, normal: int, texCoord: int)

  /** Uniform locations: `None` when the shader does not declare the uniform
      (the lookup returns null). */
  datatype Uniforms = Uniforms(
    projection: Option<nat>,
    modelView: Option<nat>,
    normal: Option<nat>,
    sampler: Option<nat>,
    ambientColor: Option<nat>,
    shininess: Option<nat>,
    pointLightingLocation: Option<nat>,
    pointLightingColor: Option<nat>)

  /** A registered program: the linked program object plus the locations
      that `bindProgram` stores on it. */
  datatype Program = Program(link: Linked, attribs: Attribs, uniforms: Uniforms)

  /** Everything the GPU decides while one program is built; `linked` is
      the link status it reports for a program with both stages attached. */
  datatype GpuReport = GpuReport(
    vertex: StageReport, fragment: StageReport,
    program: nat, linked: bool,
    attribs: Attribs, uniforms: Uniforms)

  /** User-visible diagnostics: console errors, alerts and warnings. */
  datatype Diag =
    | CompileLog(stage: Stage, log: string)
    | LinkAlert(program: string)
    | OverrideWarning(program: string)
    | LoadAlert(url: string)

  /** An exception thrown inside the load callback. */
  datatype Thrown = NotAFunction(callee: string)

  type Programs = map<string, Program>

  /** The registry after one program's load callback has run, with the
      diagnostics it produced and the attribute locations it enabled. */
  datatype Registration = Registration(programs: Programs, diags: seq<Diag>, enabled: seq<int>)

  /** The two files fetched for a program: vertex stage first. */
  function ShaderUrls(name: string): (urls: seq<string>)
    ensures |urls| == 2
    ensures urls[0] == "shaders/" + name + ".vshader" && urls[1] == "shaders/" + name + ".fshader"
  {
    ["shaders/" + name + ".vshader", "shaders/" + name + ".fshader"]
  }

  /** Compiling one stage: on failure the compiler log is reported and the
      shader becomes null; on success the shader carries its source. */
  function CompileShader(stage: Stage, source: string, report: StageReport): (r: (Option<Shader>, seq<Diag>))
    ensures r.0.Some? <==> report.compiled
    ensures r.0.Some? ==> r.0.value.stage == stage && r.0.value.source == source && r.1 == []
    ensures r.0.None? ==> r.1 == [CompileLog(stage, report.log)]
  {
    if report.compiled then (Some(Shader(stage, report.handle, source)), [])
    else (None, [CompileLog(stage, report.log)])
  }

  /** Linking: a failed link only raises an alert naming the program; the
      program object is returned either way. A stage that failed to compile
      is null, and attaching null attaches nothing, so the program lacks
      that stage; OpenGL ES 2.0 fails the link of a program without both a
      vertex and a fragment shader, whatever else the GPU would report. */
  function LinkProgram(name: string, vs: Option<Shader>, fs: Option<Shader>, handle: nat, linked: bool): (r: (Linked, seq<Diag>))
    ensures r.0.name == name && r.0.handle == handle && r.0.vertex == vs && r.0.fragment == fs
    ensures r.0.linked <==> linked && vs.Some? && fs.Some?
    ensures r.1 == (if r.0.linked then [] else [LinkAlert(name)])
  {
    var ok := linked && vs.Some? && fs.Some?;
    (Linked(name, handle, vs, fs, ok), if ok then [] else [LinkAlert(name)])
  }

  /** Looking up the locations: all three attribute arrays are enabled,
      whether or not the shader declares them. */
  function BindProgram(l: Linked, attribs: Attribs, uniforms: Uniforms): (r: (Program, seq<int>))
    ensures r.0.link == l && r.0.attribs == attribs && r.0.uniforms == uniforms
    ensures r.1 == [attribs.position, attribs.normal, attribs.texCoord]
  {
    (Program(l, attribs, uniforms), [attribs.position, attribs.normal, attribs.texCoord])
  }

  /** Storing a program as the source is written: the warning call names a
      console method that does not exist, so when the name is taken it
      throws before the assignment and the old program stays. */
  function RegisterAsWritten(reg: Programs, name: string, p: Program): (r: Result<Programs, Thrown>)
    ensures r.Failure? <==> name in reg
    ensures r.Success? ==> r.value.Keys == reg.Keys + {name} && r.value[name] == p
    ensures r.Success? ==> forall n :: n in reg ==> r.value[n] == reg[n]
  {
    if name in reg then Failure(NotAFunction("console.warning")) else Success(reg[name := p])
  }

  /** Counterexample to the intended overwrite: with the code as written,
      registering p1 and then p2 under one name leaves p1 registered and
      throws instead of warning. */
  lemma AsWrittenReregistrationKeepsOld(reg: Programs, name: string, p1: Program, p2: Program)
    requires name !in reg && p1 != p2
    ensures RegisterAsWritten(reg, name, p1).Success?
    ensures var first := RegisterAsWritten(reg, name, p1).value;
      && RegisterAsWritten(first, name, p2) == Failure(NotAFunction("console.warning"))
      && first[name] == p1 && first[name] != p2
  {
  }

  /** Storing a program as intended: a taken name draws one warning and is
      overwritten; no other entry changes. */
  function Register(reg: Programs, name: string, p: Program): (r: (Programs, seq<Diag>))
    ensures name in r.0 && r.0[name] == p
    ensures r.0.Keys == reg.Keys + {name}
    ensures forall n :: n in reg && n != name ==> r.0[n] == reg[n]
    ensures r.1 == (if name in reg then [OverrideWarning(name)] else [])
  {
    (reg[name := p], if name in reg then [OverrideWarning(name)] else [])
  }

  /** Registering twice under one name: one warning, and the second program
      is the one found. */
  lemma ReregistrationOverwrites(reg: Programs, name: string, p1: Program, p2: Program)
    ensures Register(Register(reg, name, p1).0, name, p2).0 == reg[name := p2]
    ensures Register(Register(reg, name, p1).0, name, p2).1 == [OverrideWarning(name)]
  {
  }

  /** Entry i of the loaded texts; JavaScript reads a missing entry as
      undefined, which the GPU binding turns into the text "undefined". */
  function SourceAt(texts: map<nat, string>, i: nat): string
  {
    if i in texts then texts[i] else "undefined"
  }

  /** The part of the success callback before the program is stored:
      compile both stages, link, and look up and enable the locations. The
      result is the program, the diagnostics so far and the enabled
      attribute locations. */
  function Build(name: string, texts: map<nat, string>, gpu: GpuReport): (b: (Program, seq<Diag>, seq<int>))
    ensures b.0.link.name == name && b.0.link.handle == gpu.program
    ensures b.0.link.vertex.Some? <==> gpu.vertex.compiled
    ensures b.0.link.fragment.Some? <==> gpu.fragment.compiled
    ensures b.0.link.vertex.Some? ==> b.0.link.vertex.value.source == SourceAt(texts, 0)
    ensures b.0.link.fragment.Some? ==> b.0.link.fragment.value.source == SourceAt(texts, 1)
    ensures b.0.link.linked <==> gpu.linked && gpu.vertex.compiled && gpu.fragment.compiled
    ensures b.0.attribs == gpu.attribs && b.0.uniforms == gpu.uniforms
    ensures CompileLog(VertexStage, gpu.vertex.log) in b.1 <==> !gpu.vertex.compiled
    ensures CompileLog(FragmentStage, gpu.fragment.log) in b.1 <==> !gpu.fragment.compiled
    ensures LinkAlert(name) in b.1 <==> !b.0.link.linked
    ensures forall d :: d in b.1 ==> !d.OverrideWarning? && !d.LoadAlert?
    ensures b.2 == [gpu.attribs.position, gpu.attribs.normal, gpu.attribs.texCoord]
  {
    var (vs, d1) := CompileShader(VertexStage, SourceAt(texts, 0), gpu.vertex);
    var (fs, d2) := CompileShader(FragmentStage, SourceAt(texts, 1), gpu.fragment);
    var (linked, d3) := LinkProgram(name, vs, fs, gpu.program, gpu.linked);
    var (program, enabled) := BindProgram(linked, gpu.attribs, gpu.uniforms);
    (program, d1 + d2 + d3, enabled)
  }

  /** The success callback of the batch as the source is written: the
      program is built, and then a taken name makes the warning call throw,
      so the diagnostics and enabled arrays of the build stand but the
      registry keeps its old program. A free name is stored as the
      corrected callback stores it. */
  function OnShadersLoadedAsWritten(reg: Programs, name: string, texts: map<nat, string>, gpu: GpuReport): (r: (Registration, Option<Thrown>))
    ensures r.1.Some? <==> name in reg
    ensures r.1.Some? ==> r.1.value == NotAFunction("console.warning")
    ensures name in reg ==> r.0.programs == reg
    ensures name !in reg ==> r.0 == OnShadersLoaded(reg, name, texts, gpu)
    ensures LinkAlert(name) in r.0.diags <==> !(gpu.linked && gpu.vertex.compiled && gpu.fragment.compiled)
    ensures OverrideWarning(name) !in r.0.diags
    ensures r.0.diags == Build(name, texts, gpu).1
    ensures r.0.enabled == [gpu.attribs.position, gpu.attribs.normal, gpu.attribs.texCoord]
  {
    var (program, diags, enabled) := Build(name, texts, gpu);
    match RegisterAsWritten(reg, name, program)
    case Success(programs) => (Registration(programs, diags, enabled), None)
    case Failure(thrown) => (Registration(reg, diags, enabled), Some(thrown))
  }

  /** The success callback of the batch with the corrected registration:
      compile both stages, link, look up the locations and register the
      program under its name, warning when the name was taken. */
  function OnShadersLoaded(reg: Programs, name: string, texts: map<nat, string>, gpu: GpuReport): (r: Registration)
    ensures name in r.programs
    ensures r.programs.Keys == reg.Keys + {name}
    ensures forall n :: n in reg && n != name ==> r.programs[n] == reg[n]
    ensures r.programs[name].link.name == name
    ensures r.programs[name].link.linked <==> gpu.linked && gpu.vertex.compiled && gpu.fragment.compiled
    ensures r.programs[name].link.vertex.Some? <==> gpu.vertex.compiled
    ensures r.programs[name].link.fragment.Some? <==> gpu.fragment.compiled
    ensures r.programs[name].link.vertex.Some? ==> r.programs[name].link.vertex.value.source == SourceAt(texts, 0)
    ensures r.programs[name].link.fragment.Some? ==> r.programs[name].link.fragment.value.source == SourceAt(texts, 1)
    ensures r.programs[name].attribs == gpu.attribs && r.programs[name].uniforms == gpu.uniforms
    ensures LinkAlert(name) in r.diags <==> !r.programs[name].link.linked
    ensures OverrideWarning(name) in r.diags <==> name in reg
    ensures r.enabled == [gpu.attribs.position, gpu.attribs.normal, gpu.attribs.texCoord]
  {
    var (program, diags, enabled) := Build(name, texts, gpu);
    var (programs, warning) := Register(reg, name, program);
    Registration(programs, diags + warning, enabled)
  }

  /** With the name already taken, the callback as written keeps the old
      program and throws instead of warning, where the corrected one
      stores the new program with one warning. */
  lemma AsWrittenCallbackKeepsOld(reg: Programs, name: string, texts: map<nat, string>, gpu: GpuReport)
    requires name in reg
    ensures var (asWritten, thrown) := OnShadersLoadedAsWritten(reg, name, texts, gpu);
      && thrown == Some(NotAFunction("console.warning"))
      && asWritten.programs[name] == reg[name]
      && OverrideWarning(name) !in asWritten.diags
      && OverrideWarning(name) in OnShadersLoaded(reg, name, texts, gpu).diags
      && OnShadersLoaded(reg, name, texts, gpu).programs[name] == Build(name, texts, gpu).0
  {
  }

  /** Runs the callbacks the loader calls, in order: the success callback
      builds and registers the program, the error callback alerts. Only
      the entry under `name` can be added or replaced. */
  function HandleSignals(reg: Programs, name: string, ss: seq<Loader.Signal>, gpu: GpuReport): (r: Registration)
    ensures reg.Keys <= r.programs.Keys <= reg.Keys + {name}
    ensures forall n :: n in reg && n != name ==> r.programs[n] == reg[n]
    decreases |ss|
  {
    if |ss| == 0 then Registration(reg, [], [])
    else
      var first := match ss[0]
        case Success(texts) => OnShadersLoaded(reg, name, texts, gpu)
        case Error(url) => Registration(reg, [LoadAlert(url)], []);
      var rest := HandleSignals(first.programs, name, ss[1..], gpu);
      Registration(rest.programs, first.diags + rest.diags, first.enabled + rest.enabled)
  }

  /** `compileShaders(name)`: fetch both files (the responses arriving in
      the given order) and handle what the loader reports. Whatever
      happens, no program other than the one named is added, removed or
      replaced. */
  function CompileShaders(reg: Programs, name: string, responses: seq<Loader.Response>, order: seq<nat>, gpu: GpuReport): (r: Registration)
    requires |responses| == 2
    requires forall k :: 0 <= k < |order| ==> order[k] < 2
    ensures reg.Keys <= r.programs.Keys <= reg.Keys + {name}
    ensures forall n :: n in reg && n != name ==> r.programs[n] == reg[n]
  {
    var urls := ShaderUrls(name);
    var run := Loader.Run(Loader.Start(urls), Loader.Arrivals(urls, responses, order));
    HandleSignals(reg, name, run.1, gpu)
  }

  /** When both files load, the program is registered under its name, its
      vertex stage compiled from the `.vshader` text and its fragment stage
      from the `.fshader` text, whichever arrived first; a failed link,
      including one caused by a stage that did not compile, is alerted but
      the program is still registered. */
  lemma LoadedProgramIsRegistered(reg: Programs, name: string, vText: string, fText: string, order: seq<nat>, gpu: GpuReport)
    requires Loader.IsArrivalOrder(order, 2)
    ensures var r := CompileShaders(reg, name, [Loader.Ok(vText), Loader.Ok(fText)], order, gpu);
      && name in r.programs
      && r.programs.Keys == reg.Keys + {name}
      && (forall n :: n in reg && n != name ==> r.programs[n] == reg[n])
      && (r.programs[name].link.vertex.Some? ==> r.programs[name].link.vertex.value.source == vText)
      && (r.programs[name].link.fragment.Some? ==> r.programs[name].link.fragment.value.source == fText)
      && (r.programs[name].link.linked <==> gpu.linked && gpu.vertex.compiled && gpu.fragment.compiled)
      && (LinkAlert(name) in r.diags <==> !r.programs[name].link.linked)
      && (OverrideWarning(name) in r.diags <==> name in reg)
  {
    var responses := [Loader.Ok(vText), Loader.Ok(fText)];
    var urls := ShaderUrls(name);
    Loader.BatchSucceedsOnce(urls, responses, order);
    var texts := Loader.Expected(responses);
    assert SourceAt(texts, 0) == vText && SourceAt(texts, 1) == fText;
    var one := OnShadersLoaded(reg, name, texts, gpu);
    assert HandleSignals(reg, name, [Loader.Success(texts)], gpu) == Registration(one.programs, one.diags + [], one.enabled + []);
    assert one.diags + [] == one.diags;
  }

  /** Handling error callbacks only never touches the registry. */
  lemma {:induction false} ErrorsLeaveRegistry(reg: Programs, name: string, ss: seq<Loader.Signal>, gpu: GpuReport)
    requires Loader.Successes(ss) == 0
    ensures HandleSignals(reg, name, ss, gpu).programs == reg
    ensures forall k :: 0 <= k < |ss| && ss[k].Error? ==> LoadAlert(ss[k].url) in HandleSignals(reg, name, ss, gpu).diags
    decreases |ss|
  {
    if |ss| > 0 {
      ErrorsLeaveRegistry(reg, name, ss[1..], gpu);
      forall k | 1 <= k < |ss| && ss[k].Error? ensures LoadAlert(ss[k].url) in HandleSignals(reg, name, ss, gpu).diags {
        assert ss[k] == ss[1..][k - 1];
      }
    }
  }

  /** When a file fails to load, the registry is left as it was and the
      user is told which url failed. */
  lemma LoadFailureRegistersNothing(reg: Programs, name: string, responses: seq<Loader.Response>, order: seq<nat>, gpu: GpuReport, i: nat)
    requires |responses| == 2 && Loader.IsArrivalOrder(order, 2)
    requires i < 2 && responses[i].NotOk?
    ensures CompileShaders(reg, name, responses, order, gpu).programs == reg
    ensures LoadAlert(ShaderUrls(name)[i]) in CompileShaders(reg, name, responses, order, gpu).diags
  {
    var urls := ShaderUrls(name);
    var ss := Loader.Run(Loader.Start(urls), Loader.Arrivals(urls, responses, order)).1;
    Loader.AnyFailureBlocksSuccess(urls, responses, order, i);
    ErrorsLeaveRegistry(reg, name, ss, gpu);
    var k :| 0 <= k < |ss| && ss[k] == Loader.Error(urls[i]);
  }
}

=== FILE: sphere.dfy ===
/** The UV sphere (`initSphere`): a grid of (L + 1) x (M + 1) vertices over
    latitude and longitude bands and two triangles per grid cell. The
    trigonometry is abstract: `normalAt(lat, lon)` stands for the unit vector
    (cos phi sin theta, cos theta, sin phi sin theta) with theta = lat pi / L
    and phi = 2 lon pi / M. */
module Sphere {
  import opened Gl

  const Radius: real := 1.5
  const LatitudeBands: nat := 20
  const LongitudeBands: nat := 20

  /** One grid vertex: its unit normal and its texture coordinates. */
  datatype Vertex = Vertex(normal: Vec3, u: real, v: real)

  /** The vertex at grid point (lat, lon): the position is the normal scaled
      by the radius, and the texture runs from 1 down to 0 in both
      directions. */
  function VertexOf(L: nat, M: nat, normalAt: (nat, nat) -> Vec3, lat: nat, lon: nat): Vertex
    requires L > 0 && M > 0
  {
    Vertex(normalAt(lat, lon), 1.0 - lon as real / M as real, 1.0 - lat as real / L as real)
  }

  /** Number of the vertex at grid point (lat, lon), rows of M + 1. */
  function VertexIndex(M: nat, lat: nat, lon: nat): int
  {
    lat * (M + 1) + lon
  }

  /** The vertices (lat, 0) .. (lat, lon - 1) of one latitude row. */
  function RowVertices(L: nat, M: nat, normalAt: (nat, nat) -> Vec3, lat: nat, lon: nat): (vs: seq<Vertex>)
    requires L > 0 && M > 0
    ensures |vs| == lon
    decreases lon
  {
    if lon == 0 then [] else RowVertices(L, M, normalAt, lat, lon - 1) + [VertexOf(L, M, normalAt, lat, lon - 1)]
  }

  /** The full rows 0 .. lat - 1, each of M + 1 vertices. */
  function GridVertices(L: nat, M: nat, normalAt: (nat, nat) -> Vec3, lat: nat): (vs: seq<Vertex>)
    requires L > 0 && M > 0
    decreases lat
  {
    if lat == 0 then [] else GridVertices(L, M, normalAt, lat - 1) + RowVertices(L, M, normalAt, lat - 1, M + 1)
  }

  /** The six indices of grid cell (lat, lon): triangles (first, second,
      first + 1) and (second, second + 1, first + 1), where second is the
      vertex one row below first. */
  function CellIndices(M: nat, lat: nat, lon: nat): seq<int>
  {
    var first := VertexIndex(M, lat, lon);
    var second := first + M + 1;
    [first, second, first + 1, second, second + 1, first + 1]
  }

  /** The indices of cells (lat, 0) .. (lat, lon - 1). */
  function RowIndices(M: nat, lat: nat, lon: nat): seq<int>
    decreases lon
  {
    if lon == 0 then [] else RowIndices(M, lat, lon - 1) + CellIndices(M, lat, lon - 1)
  }

  /** The indices of all cells of rows 0 .. lat - 1. */
  function GridIndices(M: nat, lat: nat): seq<int>
    decreases lat
  {
    if lat == 0 then [] else GridIndices(M, lat - 1) + RowIndices(M, lat - 1, M)
  }

  /** Normals flattened to x, y, z per vertex. */
  function FlatNormals(vs: seq<Vertex>): (r: seq<real>)
    ensures |r| == 3 * |vs|
    decreases |vs|
  {
    if |vs| == 0 then []
    else
      var n := vs[|vs| - 1].normal;
      FlatNormals(vs[..|vs| - 1]) + [n.x, n.y, n.z]
  }

  /** Positions flattened to x, y, z per vertex: the normal times the radius. */
  function FlatPositions(vs: seq<Vertex>): (r: seq<real>)
    ensures |r| == 3 * |vs|
    decreases |vs|
  {
    if |vs| == 0 then []
    else
      var n := vs[|vs| - 1].normal;
      FlatPositions(vs[..|vs| - 1]) + [Radius * n.x, Radius * n.y, Radius * n.z]
  }

  /** Texture coordinates flattened to u, v per vertex. */
  function FlatTexCoords(vs: seq<Vertex>): (r: seq<real>)
    ensures |r| == 2 * |vs|
    decreases |vs|
  {
    if |vs| == 0 then [] else FlatTexCoords(vs[..|vs| - 1]) + [vs[|vs| - 1].u, vs[|vs| - 1].v]
  }

  lemma FlatAppend(vs: seq<Vertex>, w: Vertex)
    ensures FlatNormals(vs + [w]) == FlatNormals(vs) + [w.normal.x, w.normal.y, w.normal.z]
    ensures FlatPositions(vs + [w]) == FlatPositions(vs) + [Radius * w.normal.x, Radius * w.normal.y, Radius * w.normal.z]
    ensures FlatTexCoords(vs + [w]) == FlatTexCoords(vs) + [w.u, w.v]
  {
    assert (vs + [w])[..|vs|] == vs;
  }

  /** Pushes one vertex's normal, texture coordinates and position onto the
      flat arrays. */
  function PushVertex(d: MeshData, w: Vertex): MeshData
  {
    d.(normals := d.normals + [w.normal.x, w.normal.y, w.normal.z],
       texCoords := d.texCoords + [w.u, w.v],
       positions := d.positions + [Radius * w.normal.x, Radius * w.normal.y, Radius * w.normal.z])
  }

  /** The three flat arrays of `d` hold exactly the vertices `vs`. */
  ghost predicate Flattened(vs: seq<Vertex>, d: MeshData)
  {
    d.normals == FlatNormals(vs) && d.positions == FlatPositions(vs) && d.texCoords == FlatTexCoords(vs)
  }

  lemma FlattenedAppend(vs: seq<Vertex>, w: Vertex, d: MeshData)
    requires Flattened(vs, d)
    ensures Flattened(vs + [w], PushVertex(d, w))
    ensures PushVertex(d, w).indices == d.indices
  {
    FlatAppend(vs, w);
  }

  /** One step of the inner loop keeps the flat arrays in step with the
      vertices pushed so far. */
  lemma FlattenedRowStep(L: nat, M: nat, normalAt: (nat, nat) -> Vec3, lat: nat, lon: nat, grid: seq<Vertex>, d: MeshData)
    requires L > 0 && M > 0
    requires Flattened(grid + RowVertices(L, M, normalAt, lat, lon), d)
    ensures Flattened(grid + RowVertices(L, M, normalAt, lat, lon + 1), PushVertex(d, VertexOf(L, M, normalAt, lat, lon)))
    ensures PushVertex(d, VertexOf(L, M, normalAt, lat, lon)).indices == d.indices
  {
    var w := VertexOf(L, M, normalAt, lat, lon);
    assert grid + RowVertices(L, M, normalAt, lat, lon + 1) == (grid + RowVertices(L, M, normalAt, lat, lon)) + [w];
    FlattenedAppend(grid + RowVertices(L, M, normalAt, lat, lon), w, d);
  }

  /** Every position is the matching normal component times the radius. */
  lemma {:induction false} PositionsAreScaledNormals(vs: seq<Vertex>)
    ensures forall k :: 0 <= k < |FlatPositions(vs)| ==> FlatPositions(vs)[k] == Radius * FlatNormals(vs)[k]
    decreases |vs|
  {
    if |vs| > 0 {
      PositionsAreScaledNormals(vs[..|vs| - 1]);
    }
  }

  /** A helper for the index arithmetic: a full row below row `a`. */
  lemma RowStep(a: nat, w: nat)
    ensures (a + 1) * w == a * w + w
  {
  }

  lemma {:induction false} GridVerticesLength(L: nat, M: nat, normalAt: (nat, nat) -> Vec3, lat: nat)
    requires L > 0 && M > 0
    ensures |GridVertices(L, M, normalAt, lat)| == lat * (M + 1)
    decreases lat
  {
    if lat > 0 {
      GridVerticesLength(L, M, normalAt, lat - 1);
      RowStep(lat - 1, M + 1);
    }
  }

  lemma {:induction false} RowVertexAt(L: nat, M: nat, normalAt: (nat, nat) -> Vec3, lat: nat, lon: nat, b: nat)
    requires L > 0 && M > 0 && b < lon
    ensures RowVertices(L, M, normalAt, lat, lon)[b] == VertexOf(L, M, normalAt, lat, b)
    decreases lon
  {
    if b < lon - 1 {
      RowVertexAt(L, M, normalAt, lat, lon - 1, b);
    }
  }

  /** Vertex number `VertexIndex(M, a, b)` is grid point (a, b): the index
      arithmetic of the triangles addresses the vertex layout correctly. */
  lemma {:induction false} GridVertexAt(L: nat, M: nat, normalAt: (nat, nat) -> Vec3, lat: nat, a: nat, b: nat)
    requires L > 0 && M > 0 && a < lat && b <= M
    ensures 0 <= VertexIndex(M, a, b) < |GridVertices(L, M, normalAt, lat)|
    ensures GridVertices(L, M, normalAt, lat)[VertexIndex(M, a, b)] == VertexOf(L, M, normalAt, a, b)
    decreases lat
  {
    GridVerticesLength(L, M, normalAt, lat - 1);
    GridVerticesLength(L, M, normalAt, lat);
    var prefix := GridVertices(L, M, normalAt, lat - 1);
    if a < lat - 1 {
      GridVertexAt(L, M, normalAt, lat - 1, a, b);
    } else {
      RowVertexAt(L, M, normalAt, lat - 1, M + 1, b);
      assert VertexIndex(M, a, b) == |prefix| + b;
    }
  }

  lemma {:induction false} RowIndicesLength(M: nat, lat: nat, lon: nat)
    ensures |RowIndices(M, lat, lon)| == 6 * lon
    decreases lon
  {
    if lon > 0 {
      RowIndicesLength(M, lat, lon - 1);
    }
  }

  lemma {:induction false} GridIndicesLength(M: nat, lat: nat)
    ensures |GridIndices(M, lat)| == 6 * (lat * M)
    decreases lat
  {
    if lat > 0 {
      GridIndicesLength(M, lat - 1);
      RowIndicesLength(M, lat - 1, M);
      RowStep(lat - 1, M);
    }
  }

  /** Every index of the first `lon` cells of row `lat` is below
      (lat + 2)(M + 1): it names a vertex of row `lat` or row `lat + 1`. */
  lemma {:induction false} RowIndicesBounded(M: nat, lat: nat, lon: nat)
    requires lon <= M
    ensures forall k :: 0 <= k < |RowIndices(M, lat, lon)| ==>
      0 <= RowIndices(M, lat, lon)[k] < (lat + 2) * (M + 1)
    decreases lon
  {
    if lon > 0 {
      RowIndicesBounded(M, lat, lon - 1);
      RowStep(lat + 1, M + 1);
      RowStep(lat, M + 1);
    }
  }

  lemma {:induction false} GridIndicesBounded(M: nat, lat: nat)
    ensures forall k :: 0 <= k < |GridIndices(M, lat)| ==> 0 <= GridIndices(M, lat)[k] < (lat + 1) * (M + 1)
    decreases lat
  {
    if lat > 0 {
      GridIndicesBounded(M, lat - 1);
      RowIndicesBounded(M, lat - 1, M);
      RowStep(lat - 1, M + 1);
      RowStep(lat, M + 1);
    }
  }

  /** The two triangles of cell (lat, lon) are made of its four corners:
      (lat, lon), (lat + 1, lon), (lat, lon + 1) and (lat + 1, lon + 1). */
  lemma CellCorners(M: nat, lat: nat, lon: nat)
    ensures CellIndices(M, lat, lon) == [
      VertexIndex(M, lat, lon), VertexIndex(M, lat + 1, lon), VertexIndex(M, lat, lon + 1),
      VertexIndex(M, lat + 1, lon), VertexIndex(M, lat + 1, lon + 1), VertexIndex(M, lat, lon + 1)]
  {
    RowStep(lat, M + 1);
  }

  /** The data built for the rows before `lat`: their vertices, flattened,
      and the indices of their cells (the last row has no cells). */
  ghost predicate BuiltRows(L: nat, M: nat, normalAt: (nat, nat) -> Vec3, lat: nat, d: MeshData)
    requires L > 0 && M > 0
  {
    && Flattened(GridVertices(L, M, normalAt, lat), d)
    && d.indices == GridIndices(M, if lat < L then lat else L)
  }

  /** A finished row extends the rows built so far by one. */
  lemma RowDone(L: nat, M: nat, normalAt: (nat, nat) -> Vec3, lat: nat, d: MeshData, acc: MeshData, row: seq<int>)
    requires L > 0 && M > 0 && lat <= L
    requires BuiltRows(L, M, normalAt, lat, d)
    requires Flattened(GridVertices(L, M, normalAt, lat) + RowVertices(L, M, normalAt, lat, M + 1), acc)
    requires acc.indices == d.indices
    requires row == RowSoFar(L, M, lat, M + 1)
    ensures BuiltRows(L, M, normalAt, lat + 1, acc.(indices := acc.indices + row))
  {
    GridStep(L, M, normalAt, lat);
    if lat == L {
      assert acc.indices + row == acc.indices;
    }
  }

  /** One more row of the grid: its vertices and, below the last row, its
      cells. */
  lemma GridStep(L: nat, M: nat, normalAt: (nat, nat) -> Vec3, lat: nat)
    requires L > 0 && M > 0
    ensures GridVertices(L, M, normalAt, lat + 1) == GridVertices(L, M, normalAt, lat) + RowVertices(L, M, normalAt, lat, M + 1)
    ensures GridIndices(M, lat + 1) == GridIndices(M, lat) + RowIndices(M, lat, M)
  {
  }

  /** The indices pushed for row `lat` once the inner loop has visited
      columns 0 .. lon - 1: the last row and the last column start no cell. */
  function RowSoFar(L: nat, M: nat, lat: nat, lon: nat): seq<int>
  {
    if lat < L then RowIndices(M, lat, if lon < M then lon else M) else []
  }

  /** The body of the inner loop for grid point (lat, lon): push the vertex
      and, when the point is the top-left corner of a cell, the cell's six
      indices. */
  method VisitPoint(L: nat, M: nat, normalAt: (nat, nat) -> Vec3, lat: nat, lon: nat,
                    ghost grid: seq<Vertex>, acc: MeshData, row: seq<int>)
    returns (acc': MeshData, row': seq<int>)
    requires L > 0 && M > 0 && lat <= L && lon <= M
    requires Flattened(grid + RowVertices(L, M, normalAt, lat, lon), acc)
    requires row == RowSoFar(L, M, lat, lon)
    ensures Flattened(grid + RowVertices(L, M, normalAt, lat, lon + 1), acc') && acc'.indices == acc.indices
    ensures row' == RowSoFar(L, M, lat, lon + 1)
  {
    var w := VertexOf(L, M, normalAt, lat, lon);
    FlattenedRowStep(L, M, normalAt, lat, lon, grid, acc);
    acc' := PushVertex(acc, w);
    row' := row;
    if lat < L && lon < M {
      row' := row + CellIndices(M, lat, lon);
    }
  }

  /** One pass of the outer loop: the inner (longitude) loop over the M + 1
      points of row `lat`. */
  method AppendRow(L: nat, M: nat, normalAt: (nat, nat) -> Vec3, lat: nat, d: MeshData) returns (d': MeshData)
    requires L > 0 && M > 0 && lat <= L
    requires BuiltRows(L, M, normalAt, lat, d)
    ensures BuiltRows(L, M, normalAt, lat + 1, d')
  {
    var acc := d;
    ghost var grid := GridVertices(L, M, normalAt, lat);
    assert grid + RowVertices(L, M, normalAt, lat, 0) == grid;
    var row: seq<int> := [];
    var lon := 0;
    while lon <= M
      invariant 0 <= lon <= M + 1
      invariant Flattened(grid + RowVertices(L, M, normalAt, lat, lon), acc) && acc.indices == d.indices
      invariant row == RowSoFar(L, M, lat, lon)
    {
      acc, row := VisitPoint(L, M, normalAt, lat, lon, grid, acc, row);
      lon := lon + 1;
    }
    RowDone(L, M, normalAt, lat, d, acc, row);
    d' := acc.(indices := acc.indices + row);
  }

  /** The nested latitude/longitude loop of the source: for every grid
      point (rows 0..L, columns 0..M) push its normal, texture coordinates
      and position, and for every point that is the corner of a cell push
      the cell's six indices. */
  method BuildSphere(L: nat, M: nat, normalAt: (nat, nat) -> Vec3) returns (d: MeshData)
    requires L > 0 && M > 0
    ensures d.normals == FlatNormals(GridVertices(L, M, normalAt, L + 1))
    ensures d.positions == FlatPositions(GridVertices(L, M, normalAt, L + 1))
    ensures d.texCoords == FlatTexCoords(GridVertices(L, M, normalAt, L + 1))
    ensures d.indices == GridIndices(M, L)
  {
    d := MeshData([], [], [], []);
    var lat := 0;
    while lat <= L
      invariant 0 <= lat <= L + 1
      invariant BuiltRows(L, M, normalAt, lat, d)
    {
      d := AppendRow(L, M, normalAt, lat, d);
      lat := lat + 1;
    }
  }

  /** What the sphere's arrays amount to: (L + 1)(M + 1) vertices of three
      position, three normal and two texture floats, 6LM indices that all
      name one of those vertices, and positions that are the normals scaled
      by the radius. */
  lemma SphereShape(L: nat, M: nat, normalAt: (nat, nat) -> Vec3)
    requires L > 0 && M > 0
    ensures var vs := GridVertices(L, M, normalAt, L + 1);
      && |FlatNormals(vs)| == 3 * ((L + 1) * (M + 1))
      && |FlatPositions(vs)| == 3 * ((L + 1) * (M + 1))
      && |FlatTexCoords(vs)| == 2 * ((L + 1) * (M + 1))
      && (forall k :: 0 <= k < |FlatPositions(vs)| ==> FlatPositions(vs)[k] == Radius * FlatNormals(vs)[k])
    ensures |GridIndices(M, L)| == 6 * (L * M)
    ensures forall k :: 0 <= k < |GridIndices(M, L)| ==> 0 <= GridIndices(M, L)[k] < (L + 1) * (M + 1)
  {
    GridVerticesLength(L, M, normalAt, L + 1);
    GridIndicesLength(M, L);
    GridIndicesBounded(M, L);
    PositionsAreScaledNormals(GridVertices(L, M, normalAt, L + 1));
  }

  /** Item counts as the builder sets them: array length divided by the
      item size, and the index count is the array length. */
  method InitSphere(L: nat, M: nat, normalAt: (nat, nat) -> Vec3) returns (m: Mesh, d: MeshData)
    requires L > 0 && M > 0
    ensures m.name == "sphere" && Labelled(m)
    ensures Consistent(m, d)
    ensures d.indices == GridIndices(M, L)
    ensures m.position.numItems == (L + 1) * (M + 1)
    ensures m.index.numItems == 6 * (L * M)
  {
    d := BuildSphere(L, M, normalAt);
    SphereShape(L, M, normalAt);
    m := NewMesh("sphere", |d.positions| / 3, |d.normals| / 3, |d.texCoords| / 2, |d.indices|);
    MeshConsistent("sphere", d, (L + 1) * (M + 1), 2 * (L * M));
  }

  /** The index array is uploaded as 16-bit unsigned integers, which keep
      each value modulo 65536. */
  function ToUint16(xs: seq<int>): (r: seq<int>)
    ensures |r| == |xs| && forall k :: 0 <= k < |xs| ==> r[k] == xs[k] % 65536
  {
    seq(|xs|, k requires 0 <= k < |xs| => xs[k] % 65536)
  }

  /** When the grid has at most 65536 vertices, every index survives the
      16-bit upload unchanged. */
  lemma SphereFitsUint16(L: nat, M: nat)
    requires (L + 1) * (M + 1) <= 65536
    ensures ToUint16(GridIndices(M, L)) == GridIndices(M, L)
  {
    var xs := GridIndices(M, L);
    GridIndicesBounded(M, L);
    assert forall k :: 0 <= k < |xs| ==> xs[k] % 65536 == xs[k];
  }

  /** The source's 20 x 20 bands give 441 vertices, well inside 16 bits. */
  lemma DefaultSphereFitsUint16()
    ensures ToUint16(GridIndices(LongitudeBands, LatitudeBands)) == GridIndices(LongitudeBands, LatitudeBands)
  {
    SphereFitsUint16(LatitudeBands, LongitudeBands);
  }

  /** The default sphere has 21 x 21 = 441 vertices and 6 x 20 x 20 = 2400
      indices. */
  lemma DefaultCounts()
    ensures (LatitudeBands + 1) * (LongitudeBands + 1) == 441
    ensures 6 * (LatitudeBands * LongitudeBands) == 2400
  {
    assert LatitudeBands == 20 && LongitudeBands == 20;
  }
}

=== FILE: transform.dfy ===
/** The model-view transform stack (`mvPushMatrix` / `mvPopMatrix`): a
    current matrix and a stack of saved copies. Matrices are opaque values
    of type `M`; pushing stores a copy, so later changes to the current
    matrix never reach the saved one. */
module Transform {
  import opened Wrappers

  datatype Stack<M> = Stack(current: M, saved: seq<M>)

  /** The exception thrown by a pop on an empty stack. */
  datatype StackError = InvalidPop

  /** Saves a copy of the current matrix on top of the stack. */
  function Push<M>(s: Stack<M>): (r: Stack<M>)
    ensures r.current == s.current
    ensures |r.saved| == |s.saved| + 1 && r.saved[..|s.saved|] == s.saved
    ensures r.saved[|s.saved|] == s.current
  {
    Stack(s.current, s.saved + [s.current])
  }

  /** Makes the top saved matrix current and removes it; an empty stack
      throws, and the caller's state is untouched because no new state is
      produced. */
  function Pop<M>(s: Stack<M>): (r: Result<Stack<M>, StackError>)
    ensures r.Failure? <==> |s.saved| == 0
    ensures r.Failure? ==> r.error == InvalidPop
    ensures r.Success? ==> r.value.current == s.saved[|s.saved| - 1]
    ensures r.Success? ==> r.value.saved + [r.value.current] == s.saved
  {
    if |s.saved| == 0 then Failure(InvalidPop)
    else Success(Stack(s.saved[|s.saved| - 1], s.saved[..|s.saved| - 1]))
  }

  /** Replaces the current matrix, as the frame does when it rebuilds the
      model-view matrix; the saved matrices are not affected. */
  function SetCurrent<M>(s: Stack<M>, m: M): (r: Stack<M>)
    ensures r.current == m && r.saved == s.saved
  {
    Stack(m, s.saved)
  }

  /** Push then pop gives back exactly the state before the push, whatever
      was done to the current matrix in between. */
  lemma PushPopRestores<M>(s: Stack<M>, m: M)
    ensures Pop(Push(s)) == Success(s)
    ensures Pop(SetCurrent(Push(s), m)) == Success(s)
  {
    assert (s.saved + [s.current])[..|s.saved|] == s.saved;
  }

  /** A pop on an empty stack fails, whatever the current matrix. */
  lemma PopEmptyFails<M>(m: M)
    ensures Pop(Stack(m, [])) == Failure(InvalidPop)
  {
  }

  /** n pushes, each followed by any change of the current matrix. */
  function PushAll<M>(s: Stack<M>, ms: seq<M>): Stack<M>
    decreases |ms|
  {
    if |ms| == 0 then s else PushAll(SetCurrent(Push(s), ms[0]), ms[1..])
  }

  /** n pops, stopping at the first failure. */
  function PopN<M>(s: Stack<M>, n: nat): Result<Stack<M>, StackError>
    decreases n
  {
    if n == 0 then Success(s)
    else match Pop(s)
      case Failure(e) => Failure(e)
      case Success(s') => PopN(s', n - 1)
  }

  /** Properly nested pushes and pops: after n pushes (with the current
      matrix changed after each) the stack is n deeper, and n pops bring back
      the original state exactly. */
  lemma {:induction false} NestedPushPopRestores<M>(s: Stack<M>, ms: seq<M>)
    ensures |PushAll(s, ms).saved| == |s.saved| + |ms|
    ensures PopN(PushAll(s, ms), |ms|) == Success(s)
    decreases |ms|
  {
    if |ms| > 0 {
      var s1 := SetCurrent(Push(s), ms[0]);
      NestedPushPopRestores(s1, ms[1..]);
      PopNSplit(PushAll(s1, ms[1..]), |ms| - 1);
      PushPopRestores(s, ms[0]);
    }
  }

  /** Popping n + 1 times is popping n times and then once more. */
  lemma {:induction false} PopNSplit<M>(s: Stack<M>, n: nat)
    ensures PopN(s, n + 1) == match PopN(s, n) case Failure(e) => Failure(e) case Success(s') => PopN(s', 1)
    decreases n
  {
    if n > 0 {
      match Pop(s)
      case Failure(e) =>
      case Success(s') => PopNSplit(s', n - 1);
    }
  }
}

=== FILE: wrappers.dfy ===
/** Optional values and results with an error, used wherever the source
    relies on `null`, `undefined` or a thrown exception. */
module Wrappers {

  /** A value that may be absent, such as a uniform location that the
      shader does not declare. */
  datatype Option<+T> = None | Some(value: T)

  /** The outcome of an operation that can fail with an error. */
  datatype Result<+R, +E> = Success(value: R) | Failure(error: E)
}
